=== FILE: README.md ===
# werpc bridge protocol, modelled in Dafny

werpc carries tRPC calls between the contexts of a browser extension (content
scripts, popups, devtools, offscreen documents, the background service worker)
over long-lived runtime ports. Messages are plain objects. A request sits under
`werpc_request` and a response event under `werpc_event`, and every message
has an idempotency key. The protocol assumes ports flood, so every recipient
drops a message whose key it has seen within the last TTL.

This project models the protocol core as pure functions over immutable state:

- `Idempotency` (idempotency.dfy): the seen-key set with TTL eviction. Time is
  a logical millisecond clock, and each key maps to the instant its eviction
  timer fires.
- `Events` (events.dfy): the publish/subscribe emitter. Each name holds an
  insertion-ordered set of listeners. `once` wrappers are distinct listeners.
  Abort signals carry unsubscribe hooks.
- `Bridge` (bridge.dfy): the payloads, the two envelope schemas and the wire
  type strings.
- `Ports` (ports.dfy) and `Handler` (handler.dfy): the request handler of one
  namespace. It covers the port registry and tab-scoped broadcast, event
  re-broadcast, forwarding of foreign-namespace requests, the registry of live
  subscriptions, and the events a query, mutation or subscription produces.
- `ClientLink` (client_link.dfy): the per-operation state machine of the client
  link. This includes the 1000 ms resend of `subscription.start` until it is
  acknowledged.
- `ClientManager` (client_manager.dfy): the client manager. It holds one client
  id, caches one link per namespace, and filters inbound events by client id
  and key.
- `Legacy` (legacy.dfy): the first-generation client and link. They share one
  callback map, send no client id and suppress no duplicates.
- `Sum` (sum.dfy): the placeholder `sum` export.

`Wrappers`, `Seqs` and `Operations` hold shared helpers: `Option`/`Result`,
sequences used as ordered sets, and the tRPC operation and observer calls.

Fresh idempotency keys come from counters threaded through the state, where
the source draws them at random. Keys drawn from one counter are pairwise
distinct. The handler's counter and each link's counter are independent of one
another, so the model says nothing about keys from two different counters,
just as the source's random keys can collide only with negligible
probability. The client id, which the source also draws at random, is a
parameter of `ClientManager.CreateClient`.

A link's `listening` flag and its listener's registration in the manager's
emitter are kept as two separate pieces of state. When a link aborts or
receives a stop, the flag is cleared (`ClientLink.Abort`,
`ClientLink.OnEvent`), but no manager operation unregisters the listener. This
changes nothing a caller can observe, because `ClientLink.OnEvent` ignores every
event once the flag is clear. A procedure's
outcome is a parameter of the handler's step (`ProcResult`). A subscription's
stream is a finite sequence of chunks, consumed within the step that starts it.

Where the code and the interfaces it declares differ, the model follows the
code:

- A subscription whose stream ends keeps its entry in the handler's registry:
  the entry is added at handler.ts:159, and the only removal is the
  `subscription.stop` branch at handler.ts:128-132. A later
  `subscription.start` with the same client id, namespace and id is therefore
  refused without any reply.
- A query's or mutation's `output` event carries the request's own context, as
  received (handler.ts:195-201). Its `tabId` is not filled in, but the event is
  still aimed at the resolved tab. The subscription events use a new context
  with the handler's namespace and the resolved tab (handler.ts:161-167).
- `id` and `clientName` are read from the request payload and its context
  (handler.ts:109-110). The `BridgeContext` interface in bridge.ts declares
  `id` in the context and has no `clientName`. The model follows what the code
  reads: `id` in the payload, `clientName` in the context.
- Every request type other than `subscription.stop` and `subscription.start`
  takes the query/mutation path (handler.ts:194). The schemas do not check the
  type string.
- The legacy client admits only messages with a `werpc_event` field
  (client.ts:33-37), whose schema strips every other field, and then reads the
  event from a `werpc` field (client.ts:39-46), which is therefore always
  missing. It builds its links without a client id (client.ts:108). See
  "## Findings".

## Model

| member | source | states |
|---|---|---|
| Seqs.Insert | src/events.ts:23 | Adding to a `Set` keeps one copy of each element. A new element goes at the end. An element already present keeps its position. |
| Seqs.Remove | src/events.ts:50 | Deleting from a `Set` drops exactly that element. Duplicate-freedom is preserved. |
| Seqs.RemoveKeepsOrder | src/events.ts:50 | Deleting the element at position i of a duplicate-free sequence leaves the elements before i and after i, in their order. |
| Idempotency.Create | src/idempotency/manager.ts:4 | A new manager has seen no key. |
| Idempotency.IsDuplicate | src/idempotency/manager.ts:6-18 | The answer is true exactly when the key is recorded, and then nothing changes. Otherwise the key is recorded with eviction one TTL ahead. No other key is affected. |
| Idempotency.Tick | src/idempotency/manager.ts:13-15 | As time passes, exactly the keys whose timers are due are forgotten. The remaining keys keep their eviction instants. |
| Idempotency.ForgottenAfterTtl | src/idempotency/manager.ts:11-15 | One TTL after a key is recorded it is gone, and the next observation of it counts as new. |
| Idempotency.ReplayKeepsExpiry | src/idempotency/manager.ts:7-9 | Before a key's eviction instant, every re-observation is a duplicate. Re-observation never extends the key's lifetime. |
| Idempotency.AtMostOneFirstSightingPerWindow | src/idempotency/manager.ts:6-18 | Within any stretch shorter than the TTL, a given key is answered "not a duplicate" at most once. |
| Events.On | src/events.ts:14-29 | `on` adds the callback to the name's listeners once. Re-adding it changes nothing. Other names are untouched. |
| Events.Once | src/events.ts:31-42 | `once` registers a fresh wrapper. It is distinct from every listener already registered and is appended to the name's listeners. |
| Events.Off | src/events.ts:44-51 | `off` removes exactly that listener, and the remaining listeners keep their registration order. An unknown name or listener leaves the emitter as it was. |
| Events.OffAll | src/events.ts:53-55 | `offAll` empties one name and leaves the others alone. |
| Events.Survivors | src/events.ts:36-39 | After an emission, exactly the plain listeners remain. Every `once` wrapper has removed itself. A lone listener survives exactly when it is plain. |
| Events.SurvivorsConcat | src/events.ts:36-39 | The survivors of a list are the survivors of its parts, joined: the remaining listeners keep their registration order. |
| Events.Emit | src/events.ts:57-67 | The listeners run are exactly the name's listeners, in registration order. Afterwards the name holds exactly their survivors, in the same order. Other names are untouched. |
| Events.RunHooks | src/events.ts:25-26 | Running a signal's hooks removes each hooked listener and adds none. |
| Events.Abort | src/events.ts:26 | An abort unregisters every listener that was registered with the signal. The signal is marked fired and nothing else is. Listeners not hooked to it stay registered, and other signals' hooks are unchanged. |
| Events.UnsubscribeUndoesOn | src/events.ts:25-28 | For a callback not already registered under the name, the function `on` returns undoes that `on` exactly. |
| Events.AbortUnsubscribes | src/events.ts:26 | Aborting the signal passed to `on` unregisters the listener. |
| Events.OnceRunsAtMostOnce | src/events.ts:33-41 | A `once` listener runs at the first emission, and the next emission runs only plain listeners. |
| Events.CallKeepsGone | src/events.ts:14-67 | No `on`, `once`, `off`, `offAll`, emission or abort runs a wrapper that is unregistered and whose id is spent, or registers it again. |
| Events.GoneNeverRuns | src/events.ts:14-67 | Over any sequence of emitter calls, such a wrapper is never run. |
| Events.OnceNeverRunsAgain | src/events.ts:31-42 | A `once` listener runs at the first emission of its name and never again, whatever calls follow. |
| Bridge.ParseRequestType | src/bridge.ts:16 | A request type string is read as one of the four request types exactly when it spells one. |
| Bridge.ParseEventType | src/bridge.ts:29 | An event type string is read as one of the four event types exactly when it spells one. |
| Bridge.RequestTypeRoundTrip | src/bridge.ts:16 | The four request type strings are distinct, and each reads back as its own type. |
| Bridge.EventTypeRoundTrip | src/bridge.ts:29 | The four event type strings are distinct, and each reads back as its own type. |
| Bridge.ParseRequest | src/bridge.ts:20-22 | The request schema accepts exactly the objects that carry `werpc_request`. |
| Bridge.ParseEvent | src/bridge.ts:33-35 | The event schema accepts exactly the objects that carry `werpc_event`. |
| Bridge.EnvelopeRoundTrip | src/bridge.ts:20-35 | A wrapped payload parses back to itself. A request never parses as an event, and an event never parses as a request. |
| Ports.Initial | src/handler.ts:51-53 | The handler's own port is registered at start exactly when it is not running in a service worker. |
| Ports.Connect | src/handler.ts:208-213 | Only a runtime port named with the werpc channel joins the registry. The registry stays duplicate-free. |
| Ports.Disconnect | src/handler.ts:215-217 | A disconnecting runtime port leaves the registry, and no other port does. The handler's own port is never removed. |
| Ports.Recipients | src/handler.ts:66-80 | A port receives a broadcast exactly when the broadcast has no target, the port has no tab or tab 0, or the port's tab is the target. Over a duplicate-free registry, no port is listed twice. |
| Ports.Batch | src/handler.ts:75-79 | One message goes to each recipient, position by position. |
| Ports.FanOut | src/handler.ts:66-80 | Each message goes once to each recipient. The number of sends is messages times recipients. |
| Ports.BatchReachesEachOnce | src/handler.ts:75-79 | Over a duplicate-free list of recipients, a port gets one message once if listed and otherwise none. |
| Ports.FanOutPreservesOrder | src/handler.ts:66-80 | Over a duplicate-free registry, each recipient gets every message exactly once and in order, and a non-recipient gets none. |
| Ports.UntargetedAlwaysReceives | src/handler.ts:69-73 | A port with no tab receives every broadcast. An untargeted broadcast reaches every port. |
| Handler.Init | src/handler.ts:45-54 | A new handler has no live subscriptions. It has its own port exactly outside a service worker. |
| Handler.OnEvent | src/handler.ts:86-98 | A new event is re-broadcast once, with only `tabId` possibly changed. The sender's tab fills a missing `tabId`, and the event is aimed at that tab only if scoped. A seen event changes nothing. |
| Handler.LifecycleEvents | src/handler.ts:169-193 | A subscription emits its chunk count plus two events. |
| Handler.LifecycleEventsShape | src/handler.ts:169-193 | The subscription's events are an ack, then one output per chunk in order, then one stop, each with its own consecutive key. |
| Handler.LifecycleKeysFresh | src/handler.ts:170-189 | The keys of a subscription's events are pairwise distinct and come from the fresh range. |
| Handler.Route | src/handler.ts:109-202 | A foreign-namespace request is forwarded once with the resolved tab. A stop aborts and removes a live entry. A throw emits nothing. A duplicate or non-stream start emits nothing. A new start registers and emits the full lifecycle. Anything else emits one `output` event. |
| Handler.Step | src/handler.ts:86-107 | Events are handled before requests. A message that parses as an event is handled by `OnEvent`. A request with an unseen key is recorded and routed. Malformed messages are dropped. A message with a seen key changes nothing and sends nothing. |
| Handler.EventWinsOverRequest | src/handler.ts:86-98 | A message carrying both an event and a request is handled exactly as the event alone. Its request is neither routed nor recorded. |
| Handler.OnConnect | src/handler.ts:208-213 | Only werpc-named ports join. Nothing else changes. |
| Handler.OnDisconnect | src/handler.ts:215-217 | The runtime port leaves. The handler's own port, live subscriptions and seen keys stay. |
| Handler.SeenMessagesAreInert | src/handler.ts:86-107 | Any run of messages whose keys are all seen broadcasts nothing and changes no subscription registry or key state. |
| Handler.ReplayIsDropped | src/handler.ts:88-107 | Replaying a handled message, any number of times before its key expires, produces no further message. |
| Handler.ForwardedEchoIsDropped | src/handler.ts:115-120 | A request forwarded to other namespaces is dropped when it floods back. |
| Handler.LiveUntilStopped | src/handler.ts:128-159 | A live subscription stays registered until a stop for its key arrives. The end of its stream does not remove it. |
| Handler.RestartWhileLiveIsRefused | src/handler.ts:146-149 | A start for a key that is already live emits nothing, so there is no second ack. |
| ClientLink.Post | src/client/link.ts:39-50 | Each request carries the link's client id, client name, namespace and scoping, no tab id, and the operation's id, path and input, under the next key. |
| ClientLink.Start | src/client/link.ts:92-123 | An operation posts its opening request once. Only a subscription arms the resend timer. |
| ClientLink.Resend | src/client/link.ts:94-104 | While armed, each timer tick re-posts `subscription.start` under a fresh key. |
| ClientLink.OnEvent | src/client/link.ts:66-90 | Per event type: `output` gives a value then completion. An ack disarms the timer and reports started. A subscription output gives a value. A stop unlistens and completes. Unknown types do nothing. |
| ClientLink.AbortAsWritten | src/client/link.ts:52-62 | An abort unlistens and posts one stop for the operation under the next key, but leaves the resend timer armed. |
| ClientLink.Abort | src/client/link.ts:52-62 | The corrected abort unlistens, clears the resend timer, and posts one stop under a fresh key. |
| ClientLink.TeardownAsWritten | src/client/link.ts:125-133 | Teardown posts one stop for the operation under the next key and changes nothing else, so the resend timer stays armed. |
| ClientLink.Teardown | src/client/link.ts:125-133 | The corrected teardown posts one stop and clears the resend timer. |
| ClientLink.PostsCarryConfigAndFreshKeys | src/client/link.ts:39-50 | Across any run, as written or corrected, every post carries the configuration, and the posts' keys are consecutive and so pairwise distinct. |
| ClientLink.DisarmedPostsOnlyStops | src/client/link.ts:73-76 | As written or corrected, once the timer is clear it is never re-armed, and only stops are posted. |
| ClientLink.QueryPostsOnce | src/client/link.ts:109-119 | A query or mutation posts its request once. Only stops can follow, as written or corrected. |
| ClientLink.AckEndsResending | src/client/link.ts:73-76 | Before its ack a subscription re-posts start on each tick. After the ack it never posts start again, as written or corrected. |
| ClientLink.CancelEndsResending | src/client/link.ts:52-62 | With the corrected abort or teardown, the stop is posted and the timer is clear, and no start follows in any later run. |
| ClientLink.ArmedTicksResend | src/client/link.ts:94-104 | While the timer is armed, every tick of a run posts `subscription.start` and changes no state. |
| ClientLink.AbortAsWrittenKeepsResending | src/client/link.ts:52-62 | As written, aborting before the ack posts a stop, and every later tick posts `subscription.start` again. |
| ClientLink.TeardownAsWrittenKeepsResending | src/client/link.ts:125-133 | As written, tearing down before the ack posts a stop, and every later tick posts `subscription.start` again. |
| ClientLink.ListenerIgnoresContext | src/client/link.ts:66-90 | The listener reacts only to an event's type and output, never to its context. |
| ClientManager.CreateClient | src/client/index.ts:77-93 | Creating a client is refused in a service worker. Otherwise the new client has its one client id, no clients, and no seen keys. |
| ClientManager.GetClient | src/client/index.ts:33-53 | A namespace's link gets the manager's client id and options. A cached namespace changes nothing. |
| ClientProxy.Namespace | src/client/index.ts:86-88 | A property names a namespace exactly when it is a string. A symbol fails with "Invalid namespace". |
| ClientManager.Get | src/client/index.ts:85-91 | A symbol property fails with "Invalid namespace". A string property records the namespace's client and yields a link with the manager's client id, client name and scoping for that namespace. |
| ClientManager.OneClientPerNamespace | src/client/index.ts:33-53 | After any reads, exactly the namespaces read have clients. Every link has the manager's one client id, and a namespace always gets the same link. |
| ClientManager.Listen | src/client/link.ts:66 | A link's listener is registered under `namespace:id`. |
| ClientManager.OnMessage | src/client/index.ts:59-74 | An event is emitted exactly when it parses, names this client id, and has an unseen key. An event for another client leaves everything as it was and does not mark its key. Emission runs exactly the listeners under `namespace:id`. |
| ClientManager.SeenEventEmitsNothing | src/client/index.ts:68-73 | Copies of an event whose key is seen emit nothing. |
| ClientManager.ReplayDeliversAtMostOnce | src/client/index.ts:59-74 | Any number of copies of one message emit at most one event. |
| ClientManager.EventReachesLink | src/client/index.ts:68-73 | A new event for this client reaches the listener its operation's link registered. |
| Legacy.Parse | src/client.ts:39-46 | The intended read yields exactly the event under `werpc`, when there is one. |
| Legacy.ParseRoundTrip | src/client.ts:39-46 | A legacy event wrapped under `werpc` reads back as itself, and a message without one reads as nothing. |
| Legacy.OnMessageAsWritten | src/client.ts:32-46 | As written, no message changes the callbacks or notifies anyone. The handler throws exactly when the message carries `werpc_event`. |
| Legacy.AsWrittenDropsEveryEvent | src/client.ts:32-59 | As written, an event meant for a registered callback is dropped or throws. The intended reading runs that callback. |
| Legacy.AsWrittenDeliversNothing | src/client.ts:32-59 | As written, no sequence of messages notifies any observer or changes the callbacks. |
| Legacy.Begin | src/link.ts:27-83 | The callback replaces any under `namespace:id`. A subscription reports started at once. One request goes out under a fresh key, typed `subscription.start` or the operation's type. |
| Legacy.Abort | src/link.ts:37-51 | An abort drops the callback, and only it, and posts a stop under a fresh key. |
| Legacy.Teardown | src/link.ts:85-87 | Teardown completes the observer and neither posts nor drops the callback. |
| Legacy.TeardownKeepsCallback | src/link.ts:85-87 | After teardown, a late result still runs the callback. |
| Legacy.Invoke | src/link.ts:29-35 | The callback passes the value on. It completes unless the operation is a subscription. |
| Legacy.OnMessage | src/client.ts:32-60 | Read as intended, from `werpc`: a stop drops the callback unrun. A subscription output runs it and keeps it. Any other type drops it and runs it. Unparsed messages change nothing. |
| Legacy.UnregisteredStaysSilent | src/client.ts:48-59 | Events for a key with no callback notify nobody and register nothing. |
| Legacy.ResultDeliveredOnce | src/client.ts:55-58 | A query's result is delivered at most once, even with no dedupe, because the first result drops the callback. |
| Legacy.SubscriptionReplayDeliveredTwice | src/client.ts:39-54 | A replayed subscription output is delivered twice. |
| Legacy.CreateClient | src/client.ts:20-25 | Creating a legacy client is refused in a service worker. Otherwise it starts with no callbacks. |
| Legacy.Get | src/client.ts:97-115 | A symbol fails. A namespace gets its cached link, which has no client id. |
| Legacy.PostsCarryNoClientId | src/client.ts:108 | Every request from a legacy link, start or stop, lacks a client id. |
| Sum.SumLoop | src/index.ts:1-8 | The loop computes the left-to-right sum of its arguments. |
| Sum.SumConcat | src/index.ts:4-6 | The sum of a concatenation is the sum of the parts' sums. |
| Sum.SumOfNothing | src/sum.test.ts:5-7 | With no arguments the sum is 0. |
| Sum.SumOfFour | src/sum.test.ts:9-11 | 1, 5, 10 and 20 sum to 36. |

## Left out

- The port wrapper (src/port.ts), context detection (src/detect.ts), the
  constants file, the key generator, src/werpc.ts and src/types.ts are not
  part of this model. Running in a service worker is a boolean parameter. The
  channel name and the TTL are parameters. Keys come from counters.
- Procedure lookup along the dotted path, and the call itself, are represented
  by a `ProcResult` parameter of the handler's step.
- Observable-to-async-iterable conversion is left out. A returned stream is a
  finite sequence of chunks, and a result counts as a stream exactly when it
  is one.
- Interleaving is left out. A subscription runs start to finish inside the
  step that starts it, so a stop cannot arrive mid-stream in the model. The
  effect of `ac.abort()` on a producer is recorded only as `aborted`.
- The handler's `tabId` stamping on events mutates the parsed payload in
  place. The model returns the updated copy.
- Callbacks that re-enter the emitter during `emit` (beyond a `once`
  wrapper's self-removal) are not modelled.
- The promise and async-iterator adapters `on` and `once` in
  src/events.ts:70-98 are not modelled. Each step registers one `once`
  listener, which `Events.Once` covers.
- Port disconnect and reconnect on the client side are left out: the legacy
  reconnect loop (src/client.ts:62-83) and the port singleton. The callback
  map outlives a reconnect, so nothing the model states depends on it.
- The `expectNever` helper, in a utils file, is not part of this model. An
  unknown event type is modelled as having no effect on the link.
- Logging, the playground, the build configuration and the `debug` option are
  left out.
- Handler.SubKey: the source joins client id, namespace and id into one
  string with `:`. The model keeps the triple. This matches the string key
  only when client ids contain no `:`.
- Handler.Step: payloads are taken as well-typed once their envelope parses,
  because both schemas accept any payload value. The source handles a
  malformed payload differently. For an event without a key
  (`{werpc_event: {}}`), it checks an undefined key for duplicates
  (handler.ts:88) and then throws on the missing context (handler.ts:89). For
  a request without a context (`{werpc_request: {}}`), it records its key
  (handler.ts:105) and then throws (handler.ts:110). Neither is modelled.
- Legacy.Parse: the intended reading, used by `Legacy.OnMessage`, takes the
  event from `werpc` regardless of the `werpc_event` gate. The code as written
  is `Legacy.OnMessageAsWritten` (see "## Findings"). Whether the gate admits a
  message with no `werpc_event` field at all depends on the schema library's
  version. The model follows the current one, which rejects the message.
- Sum.SumLoop: JavaScript numbers are IEEE doubles. The model uses unbounded
  integers, so rounding and overflow to infinity are not modelled.

## Findings

| source | as written | input that shows it | evidently intended | confidence | as-written member | corrected member |
|---|---|---|---|---|---|---|
| src/client/link.ts:52-62 | The abort handler unsubscribes and posts `subscription.stop`, but never clears the resend timer. | A subscription whose signal aborts before any `subscription.ack`. One second later `subscribe()` posts `subscription.start` again, and it keeps doing so, because no listener remains to receive the ack. | Clear the resend timer on abort, so no start follows the stop. | not executed | ClientLink.AbortAsWrittenKeepsResending | ClientLink.CancelEndsResending |
| src/client/link.ts:125-133 | Teardown posts `subscription.stop`, but never clears the resend timer. | A subscription unsubscribed before its ack. The pending timer re-posts `subscription.start` after the stop, which opens the subscription again at the handler with no consumer. | Clear the resend timer on teardown. | not executed | ClientLink.TeardownAsWrittenKeepsResending | ClientLink.CancelEndsResending |
| src/client.ts:33-46 | The handler admits only messages with a `werpc_event` field and strips every other field, then destructures `r.output.werpc`, which is undefined. | `{werpc_event: e, werpc: ev}` for a registered `namespace:id`: the destructuring throws a TypeError and no callback runs. `{werpc: ev}` alone is rejected at client.ts:35-37. | Gate on and read the same legacy `werpc` field, so that results reach their callbacks. | not executed | Legacy.AsWrittenDropsEveryEvent | Legacy.OnMessage |

=== FILE: bridge.dfy ===
/** The bridge envelope: the two wire shapes, a request and an event, and the
    two classifying schemas.

    A message on the channel is a JavaScript value. The schemas only ask
    whether an object carries the key `werpc_request` (resp. `werpc_event`);
    whatever the key holds is accepted without inspection. In particular the
    `type` field travels as a plain string: the four-value enumerations are the
    typed reading of it, and nothing on the receiving side rejects other
    strings.

    The context's declared `id` field is not used by the code, which reads and
    writes a top-level `id` on each payload; the model follows the code. */
module Bridge {
  import opened Wrappers
  import Idempotency

  type Key = Idempotency.Key

  /** Procedure inputs and outputs, opaque to the protocol. A stream value is
      what a subscription procedure returns (an observable or async iterable),
      reduced to the finite sequence of chunks it yields. */
  datatype Value = EmptyObject | Data(repr: string) | Stream(chunks: seq<Value>)

  /** Who sent a request and where its events go. `clientName` is optional on
      the wire; `tabId` and `scopeToTab` may be undefined. */
  datatype Context = Context(
    clientId: Key,
    clientName: Option<string>,
    namespace: string,
    tabId: Option<int>,
    scopeToTab: Option<bool>)

  datatype RequestType = Query | Mutation | StartSubscription | StopSubscription

  datatype EventType = Output | SubscriptionAck | SubscriptionOutput | SubscriptionStop

  /** The wire spelling of a request type. */
  function RequestTypeName(t: RequestType): string
  {
    match t
    case Query => "query"
    case Mutation => "mutation"
    case StartSubscription => "subscription.start"
    case StopSubscription => "subscription.stop"
  }

  /** The wire spelling of an event type. */
  function EventTypeName(t: EventType): string
  {
    match t
    case Output => "output"
    case SubscriptionAck => "subscription.ack"
    case SubscriptionOutput => "subscription.output"
    case SubscriptionStop => "subscription.stop"
  }

  /** Reads a request's `type` string; `None` for any string outside the four. */
  function ParseRequestType(s: string): (r: Option<RequestType>)
    ensures r.Some? ==> RequestTypeName(r.value) == s
    ensures r.None? ==> forall t :: RequestTypeName(t) != s
  {
    if s == "query" then Some(Query)
    else if s == "mutation" then Some(Mutation)
    else if s == "subscription.start" then Some(StartSubscription)
    else if s == "subscription.stop" then Some(StopSubscription)
    else None
  }

  /** Reads an event's `type` string; `None` for any string outside the four. */
  function ParseEventType(s: string): (r: Option<EventType>)
    ensures r.Some? ==> EventTypeName(r.value) == s
    ensures r.None? ==> forall t :: EventTypeName(t) != s
  {
    if s == "output" then Some(Output)
    else if s == "subscription.ack" then Some(SubscriptionAck)
    else if s == "subscription.output" then Some(SubscriptionOutput)
    else if s == "subscription.stop" then Some(SubscriptionStop)
    else None
  }

  /** Every request type has its own spelling and reads back as itself, so a
      well-formed request's type is exactly one of the four. */
  lemma RequestTypeRoundTrip(t: RequestType, u: RequestType)
    ensures ParseRequestType(RequestTypeName(t)) == Some(t)
    ensures t != u ==> RequestTypeName(t) != RequestTypeName(u)
  {
  }

  /** Every event type has its own spelling and reads back as itself, so a
      well-formed event's type is exactly one of the four. */
  lemma EventTypeRoundTrip(t: EventType, u: EventType)
    ensures ParseEventType(EventTypeName(t)) == Some(t)
    ensures t != u ==> EventTypeName(t) != EventTypeName(u)
  {
  }

  /** The payload under `werpc_request`. `kind` is the wire `type` field. */
  datatype RequestPayload = RequestPayload(
    idempotencyKey: Key,
    context: Context,
    id: int,
    path: string,
    kind: string,
    input: Value)

  /** The payload under `werpc_event`. `kind` is the wire `type` field. */
  datatype EventPayload = EventPayload(
    idempotencyKey: Key,
    context: Context,
    id: int,
    kind: string,
    output: Value)

  /** A value seen on the channel: an object, with or without each of the two
      bridge keys, or something that is not an object at all. */
  datatype Message =
    | Envelope(werpcRequest: Option<RequestPayload>, werpcEvent: Option<EventPayload>)
    | NotAnObject

  /** `{ werpc_request: p }` */
  function RequestMessage(p: RequestPayload): Message
  {
    Envelope(Some(p), None)
  }

  /** `{ werpc_event: p }` */
  function EventMessage(p: EventPayload): Message
  {
    Envelope(None, Some(p))
  }

  /** The request schema: accepts exactly the objects carrying `werpc_request`,
      and hands back whatever that key holds. */
  function ParseRequest(m: Message): (r: Option<RequestPayload>)
    ensures r.Some? <==> m.Envelope? && m.werpcRequest.Some?
    ensures r.Some? ==> r.value == m.werpcRequest.value
  {
    if m.Envelope? then m.werpcRequest else None
  }

  /** The event schema: accepts exactly the objects carrying `werpc_event`,
      and hands back whatever that key holds. */
  function ParseEvent(m: Message): (r: Option<EventPayload>)
    ensures r.Some? <==> m.Envelope? && m.werpcEvent.Some?
    ensures r.Some? ==> r.value == m.werpcEvent.value
  {
    if m.Envelope? then m.werpcEvent else None
  }

  /** Wrapping a payload and parsing it back gives the payload, whatever its
      fields hold, and a request never parses as an event nor the reverse. */
  lemma EnvelopeRoundTrip(p: RequestPayload, q: EventPayload)
    ensures ParseRequest(RequestMessage(p)) == Some(p) && ParseEvent(RequestMessage(p)).None?
    ensures ParseEvent(EventMessage(q)) == Some(q) && ParseRequest(EventMessage(q)).None?
  {
  }
}

=== FILE: client_link.dfy ===
/** The client link (`createWERPCLink` in the client package): one state
    machine per tRPC operation.

    On start the link registers a listener under `namespace:id` in the
    client's event emitter and posts the operation's request; a subscription
    also arms a 1000 ms timer that re-posts `subscription.start` (under a
    fresh key) until a `subscription.ack` clears it. Events delivered to the
    listener drive the observer. Abort and teardown post `subscription.stop`.

    `listening` stands for the listener's registration in the emitter (an
    unregistered listener receives nothing), `resendArmed` for the pending
    resend timer, and `completed` for `observer.complete()` having been
    called. Fresh idempotency keys come from a counter threaded through. */
module ClientLink {
  import opened Wrappers
  import opened Bridge
  import opened Operations

  /** What the client manager configures each namespace's link with. */
  datatype LinkConfig = LinkConfig(
    clientId: Key,
    clientName: Option<string>,
    namespace: string,
    scopeToTab: Option<bool>)

  datatype OpState = OpState(listening: bool, resendArmed: bool, completed: bool)

  /** The state after one input, the requests posted, the observer calls
      made, and the key counter. */
  datatype LinkOut = LinkOut(state: OpState, posts: seq<RequestPayload>, notes: seq<Notification>, nextKey: nat)

  /** The emitter name a link listens under: `namespace:id`. The client id is
      not part of it. */
  function ListenerName(cfg: LinkConfig, op: Operation): (string, int)
  {
    (cfg.namespace, op.id)
  }

  /** The request type a call of this kind starts with. */
  function OpeningType(k: OpKind): RequestType
  {
    match k
    case QueryOp => Query
    case MutationOp => Mutation
    case SubscriptionOp => StartSubscription
  }

  /** A request for `op` as this link builds it: the configured client id,
      client name, namespace and tab scoping, no tab id, and the operation's
      id, path and input. */
  predicate CarriesOp(cfg: LinkConfig, op: Operation, r: RequestPayload)
  {
    && r.context.clientId == cfg.clientId
    && r.context.clientName == cfg.clientName
    && r.context.namespace == cfg.namespace
    && r.context.scopeToTab == cfg.scopeToTab
    && r.context.tabId.None?
    && r.id == op.id && r.path == op.path && r.input == op.input
  }

  function MakeRequest(cfg: LinkConfig, op: Operation, key: Key, t: RequestType): RequestPayload
  {
    RequestPayload(key, Context(cfg.clientId, cfg.clientName, cfg.namespace, None, cfg.scopeToTab),
                   op.id, op.path, RequestTypeName(t), op.input)
  }

  /** Posts one request of type `t` under the next key. */
  function Post(cfg: LinkConfig, op: Operation, st: OpState, nextKey: nat, t: RequestType): (o: LinkOut)
    ensures o.state == st && o.notes == [] && o.nextKey == nextKey + 1
    ensures |o.posts| == 1 && CarriesOp(cfg, op, o.posts[0])
    ensures o.posts[0].idempotencyKey == nextKey
    ensures ParseRequestType(o.posts[0].kind) == Some(t)
  {
    LinkOut(st, [MakeRequest(cfg, op, nextKey, t)], [], nextKey + 1)
  }

  /** The observable is subscribed: listen, then post the opening request
      once; a subscription also arms the resend timer. */
  function Start(cfg: LinkConfig, op: Operation, nextKey: nat): (o: LinkOut)
    ensures o.state.listening && !o.state.completed
    ensures o.state.resendArmed <==> op.kind == SubscriptionOp
    ensures o.notes == [] && o.nextKey == nextKey + 1
    ensures |o.posts| == 1 && CarriesOp(cfg, op, o.posts[0])
    ensures o.posts[0].idempotencyKey == nextKey
    ensures ParseRequestType(o.posts[0].kind) == Some(OpeningType(op.kind))
  {
    Post(cfg, op, OpState(true, op.kind == SubscriptionOp, false), nextKey, OpeningType(op.kind))
  }

  /** The resend timer fires: `subscription.start` goes out again under a
      fresh key and the timer is re-armed. With no timer pending nothing
      happens. */
  function Resend(cfg: LinkConfig, op: Operation, st: OpState, nextKey: nat): (o: LinkOut)
    ensures o.state == st && o.notes == []
    ensures st.resendArmed ==>
              && |o.posts| == 1 && CarriesOp(cfg, op, o.posts[0])
              && o.posts[0].idempotencyKey == nextKey && o.nextKey == nextKey + 1
              && o.posts[0].kind == "subscription.start"
    ensures !st.resendArmed ==> o.posts == [] && o.nextKey == nextKey
  {
    if st.resendArmed then Post(cfg, op, st, nextKey, StartSubscription)
    else LinkOut(st, [], [], nextKey)
  }

  /** The listener receives an event (only while it is registered):
      - `output`: one data value, then completion;
      - `subscription.ack`: the resend timer is cleared and "started" reported;
      - `subscription.output`: one data value, the listener stays;
      - `subscription.stop`: the listener unregisters and the observer completes;
      - any other type string: nothing. */
  function OnEvent(st: OpState, ev: EventPayload, nextKey: nat): (o: LinkOut)
    ensures o.posts == [] && o.nextKey == nextKey
    ensures !st.listening ==> o.state == st && o.notes == []
    ensures st.listening && ev.kind == "output" ==>
              o.notes == [Next(ev.output), Complete] && o.state == st.(completed := true)
    ensures st.listening && ev.kind == "subscription.ack" ==>
              o.notes == [Started] && o.state == st.(resendArmed := false)
    ensures st.listening && ev.kind == "subscription.output" ==>
              o.notes == [Next(ev.output)] && o.state == st
    ensures st.listening && ev.kind == "subscription.stop" ==>
              o.notes == [Complete] && o.state == st.(listening := false, completed := true)
    ensures ParseEventType(ev.kind).None? ==> o.state == st && o.notes == []
  {
    if !st.listening then LinkOut(st, [], [], nextKey)
    else
      match ParseEventType(ev.kind)
      case Some(Output) => LinkOut(st.(completed := true), [], [Next(ev.output), Complete], nextKey)
      case Some(SubscriptionAck) => LinkOut(st.(resendArmed := false), [], [Started], nextKey)
      case Some(SubscriptionOutput) => LinkOut(st, [], [Next(ev.output)], nextKey)
      case Some(SubscriptionStop) =>
        LinkOut(st.(listening := false, completed := true), [], [Complete], nextKey)
      case None => LinkOut(st, [], [], nextKey)
  }

  /** The operation's signal aborts, as the code does it: the listener is
      unregistered and `subscription.stop` is posted; the resend timer is
      left as it was. */
  function AbortAsWritten(cfg: LinkConfig, op: Operation, st: OpState, nextKey: nat): (o: LinkOut)
    ensures !o.state.listening && o.state.resendArmed == st.resendArmed && o.state.completed == st.completed
    ensures o.notes == [] && o.nextKey == nextKey + 1
    ensures |o.posts| == 1 && CarriesOp(cfg, op, o.posts[0])
    ensures o.posts[0].idempotencyKey == nextKey && o.posts[0].kind == "subscription.stop"
  {
    Post(cfg, op, st.(listening := false), nextKey, StopSubscription)
  }

  /** The operation's signal aborts: the listener is unregistered, the resend
      timer is cleared, and `subscription.stop` is posted under a fresh key. */
  function Abort(cfg: LinkConfig, op: Operation, st: OpState, nextKey: nat): (o: LinkOut)
    ensures !o.state.listening && !o.state.resendArmed && o.state.completed == st.completed
    ensures o.notes == [] && o.nextKey == nextKey + 1
    ensures |o.posts| == 1 && CarriesOp(cfg, op, o.posts[0])
    ensures o.posts[0].idempotencyKey == nextKey && o.posts[0].kind == "subscription.stop"
  {
    Post(cfg, op, st.(listening := false, resendArmed := false), nextKey, StopSubscription)
  }

  /** The observable is torn down, as the code does it: `subscription.stop`
      is posted and nothing else changes, so a pending resend timer stays. */
  function TeardownAsWritten(cfg: LinkConfig, op: Operation, st: OpState, nextKey: nat): (o: LinkOut)
    ensures o.state == st
    ensures o.notes == [] && o.nextKey == nextKey + 1
    ensures |o.posts| == 1 && CarriesOp(cfg, op, o.posts[0])
    ensures o.posts[0].idempotencyKey == nextKey && o.posts[0].kind == "subscription.stop"
  {
    Post(cfg, op, st, nextKey, StopSubscription)
  }

  /** The observable is torn down: `subscription.stop` is posted under a
      fresh key and the resend timer is cleared. */
  function Teardown(cfg: LinkConfig, op: Operation, st: OpState, nextKey: nat): (o: LinkOut)
    ensures o.state == st.(resendArmed := false)
    ensures o.notes == [] && o.nextKey == nextKey + 1
    ensures |o.posts| == 1 && CarriesOp(cfg, op, o.posts[0])
    ensures o.posts[0].idempotencyKey == nextKey && o.posts[0].kind == "subscription.stop"
  {
    Post(cfg, op, st.(resendArmed := false), nextKey, StopSubscription)
  }

  /** Something that happens to a started operation. */
  datatype LinkInput = Deliver(ev: EventPayload) | TimerFires | SignalAborts | TornDown

  /** Which abort and teardown a run uses: the code's own, which leave the
      resend timer armed, or the corrected ones, which clear it. */
  datatype Variant = AsWritten | Corrected

  function Apply(v: Variant, cfg: LinkConfig, op: Operation, st: OpState, nextKey: nat, i: LinkInput): LinkOut
  {
    match i
    case Deliver(ev) => OnEvent(st, ev, nextKey)
    case TimerFires => Resend(cfg, op, st, nextKey)
    case SignalAborts => if v.AsWritten? then AbortAsWritten(cfg, op, st, nextKey) else Abort(cfg, op, st, nextKey)
    case TornDown => if v.AsWritten? then TeardownAsWritten(cfg, op, st, nextKey) else Teardown(cfg, op, st, nextKey)
  }

  /** Applies inputs in order, collecting every post and observer call. */
  function Run(v: Variant, cfg: LinkConfig, op: Operation, st: OpState, nextKey: nat, inputs: seq<LinkInput>): LinkOut
    decreases |inputs|
  {
    if |inputs| == 0 then LinkOut(st, [], [], nextKey)
    else
      var o := Apply(v, cfg, op, st, nextKey, inputs[0]);
      var rest := Run(v, cfg, op, o.state, o.nextKey, inputs[1..]);
      LinkOut(rest.state, o.posts + rest.posts, o.notes + rest.notes, rest.nextKey)
  }

  /** Every request a link posts carries its configuration and operation, and
      each takes the next key: keys are consecutive, hence pairwise distinct.
      This holds as written and corrected alike. */
  lemma {:induction false} PostsCarryConfigAndFreshKeys(v: Variant, cfg: LinkConfig, op: Operation, st: OpState, nextKey: nat, inputs: seq<LinkInput>)
    ensures var o := Run(v, cfg, op, st, nextKey, inputs);
            && o.nextKey == nextKey + |o.posts|
            && forall i :: 0 <= i < |o.posts| ==>
                 CarriesOp(cfg, op, o.posts[i]) && o.posts[i].idempotencyKey == nextKey + i
    decreases |inputs|
  {
    if |inputs| > 0 {
      var o := Apply(v, cfg, op, st, nextKey, inputs[0]);
      assert o.nextKey == nextKey + |o.posts|;
      assert forall i :: 0 <= i < |o.posts| ==> CarriesOp(cfg, op, o.posts[i]) && o.posts[i].idempotencyKey == nextKey + i;
      PostsCarryConfigAndFreshKeys(v, cfg, op, o.state, o.nextKey, inputs[1..]);
    }
  }

  /** Once no resend timer is pending, none is ever armed again, and every
      request the link posts from then on is a `subscription.stop`, as
      written and corrected alike. */
  lemma {:induction false} DisarmedPostsOnlyStops(v: Variant, cfg: LinkConfig, op: Operation, st: OpState, nextKey: nat, inputs: seq<LinkInput>)
    requires !st.resendArmed
    ensures var o := Run(v, cfg, op, st, nextKey, inputs);
            && !o.state.resendArmed
            && forall i :: 0 <= i < |o.posts| ==> o.posts[i].kind == "subscription.stop"
    decreases |inputs|
  {
    if |inputs| > 0 {
      var o := Apply(v, cfg, op, st, nextKey, inputs[0]);
      assert !o.state.resendArmed;
      DisarmedPostsOnlyStops(v, cfg, op, o.state, o.nextKey, inputs[1..]);
    }
  }

  /** A query or mutation posts its request exactly once: whatever happens
      afterwards, as written or corrected, only stops follow. */
  lemma QueryPostsOnce(v: Variant, cfg: LinkConfig, op: Operation, nextKey: nat, inputs: seq<LinkInput>)
    requires op.kind != SubscriptionOp
    ensures var s := Start(cfg, op, nextKey);
            var o := Run(v, cfg, op, s.state, s.nextKey, inputs);
            && ParseRequestType(s.posts[0].kind) == Some(OpeningType(op.kind))
            && forall i :: 0 <= i < |o.posts| ==> o.posts[i].kind == "subscription.stop"
  {
    var s := Start(cfg, op, nextKey);
    DisarmedPostsOnlyStops(v, cfg, op, s.state, s.nextKey, inputs);
  }

  /** While the subscription is unacknowledged, each timer tick re-posts
      `subscription.start`; after an ack no start is ever posted again, as
      written and corrected alike. */
  lemma AckEndsResending(v: Variant, cfg: LinkConfig, op: Operation, st: OpState, nextKey: nat, ack: EventPayload, inputs: seq<LinkInput>)
    requires st.listening && st.resendArmed
    requires ack.kind == "subscription.ack"
    ensures Resend(cfg, op, st, nextKey).posts[0].kind == "subscription.start"
    ensures var a := OnEvent(st, ack, nextKey);
            var o := Run(v, cfg, op, a.state, a.nextKey, inputs);
            forall i :: 0 <= i < |o.posts| ==> o.posts[i].kind == "subscription.stop"
  {
    var a := OnEvent(st, ack, nextKey);
    DisarmedPostsOnlyStops(v, cfg, op, a.state, a.nextKey, inputs);
  }

  /** Cancelling an operation with the corrected abort or teardown ends the
      resend loop: no `subscription.start` is posted after the stop. */
  lemma CancelEndsResending(v: Variant, cfg: LinkConfig, op: Operation, st: OpState, nextKey: nat, byAbort: bool, inputs: seq<LinkInput>)
    ensures var o := Run(Corrected, cfg, op, st, nextKey, [if byAbort then SignalAborts else TornDown]);
            && |o.posts| == 1 && o.posts[0].kind == "subscription.stop"
            && !o.state.resendArmed
    ensures var c := if byAbort then Abort(cfg, op, st, nextKey) else Teardown(cfg, op, st, nextKey);
            var o := Run(v, cfg, op, c.state, c.nextKey, inputs);
            && c.posts[0].kind == "subscription.stop"
            && forall i :: 0 <= i < |o.posts| ==> o.posts[i].kind == "subscription.stop"
  {
    var c := if byAbort then Abort(cfg, op, st, nextKey) else Teardown(cfg, op, st, nextKey);
    DisarmedPostsOnlyStops(v, cfg, op, c.state, c.nextKey, inputs);
  }

  /** While the resend timer is armed, each tick posts `subscription.start`
      under the next key and leaves the state as it was. */
  lemma {:induction false} ArmedTicksResend(v: Variant, cfg: LinkConfig, op: Operation, st: OpState, nextKey: nat, ticks: nat)
    requires st.resendArmed
    ensures var o := Run(v, cfg, op, st, nextKey, seq(ticks, _ => TimerFires));
            && o.state == st && |o.posts| == ticks
            && forall i :: 0 <= i < ticks ==> o.posts[i].kind == "subscription.start"
    decreases ticks
  {
    if ticks > 0 {
      var inputs := seq(ticks, _ => TimerFires);
      assert inputs[0] == TimerFires && inputs[1..] == seq(ticks - 1, _ => TimerFires);
      ArmedTicksResend(v, cfg, op, st, nextKey + 1, ticks - 1);
    }
  }

  /** As written, aborting a subscription before its ack leaves the resend
      timer armed: every later tick posts `subscription.start` again, after
      the stop. */
  lemma AbortAsWrittenKeepsResending(cfg: LinkConfig, op: Operation, nextKey: nat, ticks: nat)
    requires op.kind == SubscriptionOp
    ensures var s := Start(cfg, op, nextKey);
            var o := Run(AsWritten, cfg, op, s.state, s.nextKey, [SignalAborts] + seq(ticks, _ => TimerFires));
            && |o.posts| == 1 + ticks && o.posts[0].kind == "subscription.stop"
            && forall i :: 1 <= i <= ticks ==> o.posts[i].kind == "subscription.start"
  {
    var s := Start(cfg, op, nextKey);
    var inputs := [SignalAborts] + seq(ticks, _ => TimerFires);
    assert inputs[0] == SignalAborts && inputs[1..] == seq(ticks, _ => TimerFires);
    var a := AbortAsWritten(cfg, op, s.state, s.nextKey);
    ArmedTicksResend(AsWritten, cfg, op, a.state, a.nextKey, ticks);
  }

  /** As written, tearing a subscription down before its ack leaves the resend
      timer armed: every later tick posts `subscription.start` after the stop. */
  lemma TeardownAsWrittenKeepsResending(cfg: LinkConfig, op: Operation, nextKey: nat, ticks: nat)
    requires op.kind == SubscriptionOp
    ensures var s := Start(cfg, op, nextKey);
            var o := Run(AsWritten, cfg, op, s.state, s.nextKey, [TornDown] + seq(ticks, _ => TimerFires));
            && |o.posts| == 1 + ticks && o.posts[0].kind == "subscription.stop"
            && forall i :: 1 <= i <= ticks ==> o.posts[i].kind == "subscription.start"
  {
    var s := Start(cfg, op, nextKey);
    var inputs := [TornDown] + seq(ticks, _ => TimerFires);
    assert inputs[0] == TornDown && inputs[1..] == seq(ticks, _ => TimerFires);
    var t := TeardownAsWritten(cfg, op, s.state, s.nextKey);
    ArmedTicksResend(AsWritten, cfg, op, t.state, t.nextKey, ticks);
  }

  /** The listener looks only at an event's type and output: two events that
      differ in their context (client id included) are handled alike. */
  lemma ListenerIgnoresContext(st: OpState, ev: EventPayload, ctx: Context, nextKey: nat)
    ensures OnEvent(st, ev, nextKey) == OnEvent(st, ev.(context := ctx), nextKey)
  {
  }
}

=== FILE: client_manager.dfy ===
/** The client manager behind `createClient` (client package).

    One manager has one client id, drawn once, and hands it to every
    namespace link it creates. Inbound messages pass a filter: they must parse
    as events, be addressed to this client id, and carry a key not seen
    before; only then is the event emitted under `namespace:id`, where the
    links' listeners wait. Listeners are named by operation handles. */
module ClientManager {
  import opened Wrappers
  import opened Bridge
  import opened Events
  import opened ClientLink
  import opened ClientProxy
  import Operations
  import Idempotency

  datatype Options = Options(clientName: Option<string>, scopeToTab: Option<bool>)

  datatype Manager = Manager(
    clientId: Key,
    options: Options,
    events: Emitter<(string, int), nat, nat>,
    seen: Idempotency.Manager,
    clients: set<string>)

  predicate Valid(m: Manager)
  {
    Idempotency.Valid(m.seen) && Events.Valid(m.events)
  }

  /** `createClient(options)`: refused in a service worker; otherwise a
      manager with the given client id, no clients and nothing seen. */
  function CreateClient(clientId: Key, options: Options, ttl: nat, inServiceWorker: bool): (r: Result<Manager, ClientError>)
    requires ttl > 0
    ensures inServiceWorker ==> r == Failure(InServiceWorker)
    ensures !inServiceWorker ==>
              && r.Success? && Valid(r.value)
              && r.value.clientId == clientId && r.value.options == options
              && r.value.clients == {}
              && (forall k :: k !in r.value.seen.expiry)
              && (forall n :: Registered(r.value.events, n) == [])
  {
    if inServiceWorker then Failure(InServiceWorker)
    else Success(Manager(clientId, options, Emitter(map[], 0, map[], {}), Idempotency.Create(ttl), {}))
  }

  /** `getClient(namespace)`: the link configuration of the namespace's
      client, created on first use and cached after. */
  function GetClient(m: Manager, ns: string): (r: (Manager, LinkConfig))
    ensures r.1 == LinkConfig(m.clientId, m.options.clientName, ns, m.options.scopeToTab)
    ensures r.0 == m.(clients := m.clients + {ns})
    ensures ns in m.clients ==> r.0 == m
  {
    var cfg := LinkConfig(m.clientId, m.options.clientName, ns, m.options.scopeToTab);
    if ns in m.clients then (m, cfg)
    else (m.(clients := m.clients + {ns}), cfg)
  }

  /** The client proxy's `get`: a symbol property throws; a string property
      is a namespace, whose client is created once and shares the manager's
      client id, client name and tab scoping. */
  function Get(m: Manager, prop: PropertyKey): (r: Result<(Manager, LinkConfig), ClientError>)
    ensures prop.SymbolKey? ==> r == Failure(InvalidNamespace)
    ensures prop.StringKey? ==>
              r == Success((m.(clients := m.clients + {prop.name}),
                            LinkConfig(m.clientId, m.options.clientName, prop.name, m.options.scopeToTab)))
  {
    match Namespace(prop)
    case Failure(e) => Failure(e)
    case Success(ns) => Success(GetClient(m, ns))
  }

  /** Reads the namespaces in order, returning the configurations handed out. */
  function GetAll(m: Manager, nss: seq<string>): (Manager, seq<LinkConfig>)
    decreases |nss|
  {
    if |nss| == 0 then (m, [])
    else
      var (m1, cfg) := GetClient(m, nss[0]);
      var (m2, rest) := GetAll(m1, nss[1..]);
      (m2, [cfg] + rest)
  }

  /** However many times namespaces are read, exactly one client exists per
      namespace read, every link gets the manager's one client id, and a
      namespace always gets the same configuration. */
  lemma {:induction false} OneClientPerNamespace(m: Manager, nss: seq<string>)
    ensures var (m', cfgs) := GetAll(m, nss);
            && |cfgs| == |nss|
            && (forall ns :: ns in m'.clients <==> ns in m.clients || ns in nss)
            && m' == m.(clients := m'.clients)
            && forall i :: 0 <= i < |nss| ==>
                 cfgs[i] == LinkConfig(m.clientId, m.options.clientName, nss[i], m.options.scopeToTab)
    decreases |nss|
  {
    if |nss| > 0 {
      var (m1, cfg) := GetClient(m, nss[0]);
      OneClientPerNamespace(m1, nss[1..]);
      var (m2, rest) := GetAll(m1, nss[1..]);
      assert forall x :: x in nss <==> x == nss[0] || x in nss[1..];
    }
  }

  /** A link registers its listener for an operation (`events.on`). */
  function Listen(m: Manager, cfg: LinkConfig, op: Operations.Operation, handle: nat): (r: Manager)
    ensures Plain(handle) in Registered(r.events, ListenerName(cfg, op))
    ensures r == m.(events := r.events)
    ensures Valid(m) ==> Valid(r)
  {
    m.(events := On(m.events, ListenerName(cfg, op), handle, None).0)
  }

  /** The outcome of one inbound message: the new manager, the event emitted
      (if any), and the listeners it ran. */
  datatype Received = Received(manager: Manager, emitted: Option<EventPayload>, invoked: seq<Listener<nat>>)

  /** The port's message handler: non-events are ignored; an event for
      another client id is ignored before its key is looked at; a duplicate
      is ignored; anything else is emitted under `namespace:id`. */
  function OnMessage(m: Manager, msg: Message): (r: Received)
    ensures ParseEvent(msg).None? ==> r == Received(m, None, [])
    ensures ParseEvent(msg).Some? && ParseEvent(msg).value.context.clientId != m.clientId ==>
              r == Received(m, None, [])
    ensures r.emitted.Some? <==>
              && ParseEvent(msg).Some?
              && ParseEvent(msg).value.context.clientId == m.clientId
              && ParseEvent(msg).value.idempotencyKey !in m.seen.expiry
    ensures r.emitted.None? ==> r.manager == m && r.invoked == []
    ensures r.emitted.Some? ==>
              var ev := r.emitted.value;
              && ev == ParseEvent(msg).value
              && r.invoked == Registered(m.events, (ev.context.namespace, ev.id))
              && ev.idempotencyKey in r.manager.seen.expiry
              && OthersUntouched(m.events, r.manager.events, (ev.context.namespace, ev.id))
    ensures r.manager.clientId == m.clientId && r.manager.clients == m.clients && r.manager.options == m.options
    ensures Valid(m) ==> Valid(r.manager)
  {
    match ParseEvent(msg)
    case None => Received(m, None, [])
    case Some(ev) =>
      if ev.context.clientId != m.clientId then Received(m, None, [])
      else
        var (seen, dup) := Idempotency.IsDuplicate(m.seen, ev.idempotencyKey);
        if dup then Received(m, None, [])
        else
          var (events, invoked) := Emit(m.events, (ev.context.namespace, ev.id));
          Received(m.(seen := seen, events := events), Some(ev), invoked)
  }

  /** Feeds messages in order, collecting the events emitted. */
  function Deliveries(m: Manager, msgs: seq<Message>): (Manager, seq<EventPayload>)
    decreases |msgs|
  {
    if |msgs| == 0 then (m, [])
    else
      var r := OnMessage(m, msgs[0]);
      var (m', rest) := Deliveries(r.manager, msgs[1..]);
      (m', (if r.emitted.Some? then [r.emitted.value] else []) + rest)
  }

  /** Once an event's key is seen, further copies of it emit nothing. */
  lemma {:induction false} SeenEventEmitsNothing(m: Manager, msg: Message, copies: nat)
    requires ParseEvent(msg).Some? && ParseEvent(msg).value.idempotencyKey in m.seen.expiry
    ensures Deliveries(m, seq(copies, _ => msg)).1 == []
    decreases copies
  {
    if copies > 0 {
      var msgs := seq(copies, _ => msg);
      assert msgs[0] == msg && msgs[1..] == seq(copies - 1, _ => msg);
      SeenEventEmitsNothing(m, msg, copies - 1);
    }
  }

  /** Replaying the identical event any number of times (within the key's
      retention window) emits it at most once. */
  lemma {:induction false} ReplayDeliversAtMostOnce(m: Manager, msg: Message, copies: nat)
    ensures |Deliveries(m, seq(copies, _ => msg)).1| <= 1
  {
    if copies > 0 {
      var msgs := seq(copies, _ => msg);
      assert msgs[0] == msg && msgs[1..] == seq(copies - 1, _ => msg);
      var r := OnMessage(m, msg);
      if r.emitted.Some? {
        SeenEventEmitsNothing(r.manager, msg, copies - 1);
      } else {
        ReplayDeliversAtMostOnce(r.manager, msg, copies - 1);
      }
    }
  }

  /** An event addressed to this client, not yet seen, reaches every listener
      registered under its `namespace:id`, such as an operation's link. */
  lemma EventReachesLink(m: Manager, cfg: LinkConfig, op: Operations.Operation, handle: nat, ev: EventPayload)
    requires ev.context.clientId == m.clientId
    requires ev.idempotencyKey !in m.seen.expiry
    requires (ev.context.namespace, ev.id) == ListenerName(cfg, op)
    ensures Plain(handle) in OnMessage(Listen(m, cfg, op, handle), EventMessage(ev)).invoked
  {
  }
}

=== FILE: client_proxy.dfy ===
/** What both clients share: the errors `createClient` and the client proxy
    throw, and how the proxy reads a property as a namespace. */
module ClientProxy {
  import opened Wrappers

  datatype ClientError = InServiceWorker | InvalidNamespace

  /** A property read on the client proxy: a string, or a symbol. */
  datatype PropertyKey = StringKey(name: string) | SymbolKey(symbol: nat)

  /** The proxy's `get` trap: a string property names a namespace; a symbol
      property throws. */
  function Namespace(prop: PropertyKey): (r: Result<string, ClientError>)
    ensures r.Success? <==> prop.StringKey?
    ensures r.Success? ==> r.value == prop.name
    ensures r.Failure? ==> r.error == InvalidNamespace
  {
    match prop
    case StringKey(ns) => Success(ns)
    case SymbolKey(_) => Failure(InvalidNamespace)
  }
}

=== FILE: events.dfy ===
/** The in-process publish/subscribe `EventEmitter`.

    Each event name maps to an insertion-ordered, duplicate-free sequence of
    listeners (the source's `Set` of callbacks). A listener registered with
    `on` is the caller's callback itself; one registered with `once` is a new
    wrapper function around the callback, so it is a distinct listener even
    when the same callback is also registered directly. Wrappers are told
    apart by a counter.

    An `AbortSignal` handed to `on` gets the returned unsubscribe function as
    an abort hook; the emitter keeps, per signal, the hooks still pending, and
    the set of signals that have already fired (a hook added to a fired signal
    never runs). */
module Events {
  import opened Wrappers
  import opened Seqs

  datatype Listener<C> = Plain(cb: C) | Wrapped(wrapper: nat, cb: C)

  datatype Emitter<N, C, S> = Emitter(
    listeners: map<N, seq<Listener<C>>>,
    nextWrapper: nat,
    hooks: map<S, seq<(N, Listener<C>)>>,
    fired: set<S>)

  /** The listeners registered under `name`, in registration order. */
  function Registered<N(==), C(==), S(==)>(e: Emitter<N, C, S>, name: N): seq<Listener<C>>
  {
    if name in e.listeners then e.listeners[name] else []
  }

  /** Each name holds every listener at most once, and every wrapper id in use
      is below the counter. */
  predicate Valid<N(==,!new), C(==,!new), S(==)>(e: Emitter<N, C, S>)
  {
    && (forall n :: n in e.listeners ==> NoDup(e.listeners[n]))
    && (forall n, l :: n in e.listeners && l in e.listeners[n] && l.Wrapped? ==> l.wrapper < e.nextWrapper)
  }

  /** Names other than `name` keep exactly the listeners they had. */
  ghost predicate OthersUntouched<N(!new), C, S>(e: Emitter<N, C, S>, e': Emitter<N, C, S>, name: N)
  {
    forall n :: n != name ==> Registered(e', n) == Registered(e, n)
  }

  /** Registers `l` under `name` (a `Set.add`) and, when a signal that has not
      yet fired is given, records the unsubscribe hook for it. */
  function Register<N(==), C(==,!new), S(==)>(e: Emitter<N, C, S>, name: N, l: Listener<C>, signal: Option<S>): (r: Emitter<N, C, S>)
  {
    var added := e.(listeners := e.listeners[name := Insert(Registered(e, name), l)]);
    match signal
    case Some(s) =>
      if s in e.fired then added
      else
        var pending := if s in e.hooks then e.hooks[s] else [];
        added.(hooks := e.hooks[s := pending + [(name, l)]])
    case None => added
  }

  /** `on(name, cb, signal)`: registers `cb` under `name` and returns the
      listener its unsubscribe function removes. */
  function On<N(==,!new), C(==,!new), S(==)>(e: Emitter<N, C, S>, name: N, cb: C, signal: Option<S>): (r: (Emitter<N, C, S>, Listener<C>))
    ensures r.1 == Plain(cb)
    ensures forall l :: l in Registered(r.0, name) <==> l in Registered(e, name) || l == Plain(cb)
    ensures Plain(cb) in Registered(e, name) ==> Registered(r.0, name) == Registered(e, name)
    ensures Plain(cb) !in Registered(e, name) ==> Registered(r.0, name) == Registered(e, name) + [Plain(cb)]
    ensures OthersUntouched(e, r.0, name)
    ensures r.0.nextWrapper == e.nextWrapper
    ensures Valid(e) ==> Valid(r.0)
  {
    (Register(e, name, Plain(cb), signal), Plain(cb))
  }

  /** `once(name, cb, signal)`: registers a fresh wrapper around `cb` that
      unregisters itself before running `cb`. */
  function Once<N(==,!new), C(==,!new), S(==)>(e: Emitter<N, C, S>, name: N, cb: C, signal: Option<S>): (r: (Emitter<N, C, S>, Listener<C>))
    ensures r.1.Wrapped? && r.1.cb == cb
    ensures forall l :: l in Registered(r.0, name) <==> l in Registered(e, name) || l == r.1
    ensures Valid(e) ==> r.1 !in Registered(e, name) && Registered(r.0, name) == Registered(e, name) + [r.1]
    ensures OthersUntouched(e, r.0, name)
    ensures r.1.wrapper == e.nextWrapper && r.0.nextWrapper == e.nextWrapper + 1
    ensures Valid(e) ==> Valid(r.0)
  {
    var w := Wrapped(e.nextWrapper, cb);
    (Register(e.(nextWrapper := e.nextWrapper + 1), name, w, signal), w)
  }

  /** `off(name, cb)`: unregisters one listener; unknown names and unknown
      listeners leave the emitter as it was. */
  function Off<N(==,!new), C(==,!new), S(==)>(e: Emitter<N, C, S>, name: N, l: Listener<C>): (r: Emitter<N, C, S>)
    ensures name !in e.listeners || l !in Registered(e, name) ==> r == e
    ensures forall x :: x in Registered(r, name) <==> x in Registered(e, name) && x != l
    ensures OthersUntouched(e, r, name)
    ensures Valid(e) ==> forall i :: 0 <= i < |Registered(e, name)| && Registered(e, name)[i] == l ==>
              Registered(r, name) == Registered(e, name)[..i] + Registered(e, name)[i + 1..]
    ensures r.nextWrapper == e.nextWrapper && r.hooks == e.hooks && r.fired == e.fired
    ensures Valid(e) ==> Valid(r)
  {
    if name !in e.listeners then e
    else
      var r := e.(listeners := e.listeners[name := Remove(e.listeners[name], l)]);
      assert Valid(e) ==> forall i :: 0 <= i < |Registered(e, name)| && Registered(e, name)[i] == l ==>
               Registered(r, name) == Registered(e, name)[..i] + Registered(e, name)[i + 1..] by {
        if Valid(e) {
          forall i | 0 <= i < |Registered(e, name)| && Registered(e, name)[i] == l
            ensures Registered(r, name) == Registered(e, name)[..i] + Registered(e, name)[i + 1..]
          {
            RemoveKeepsOrder(e.listeners[name], l, i);
          }
        }
      }
      r
  }

  /** `offAll(name)`: empties one name's listeners. */
  function OffAll<N(==,!new), C(==,!new), S(==)>(e: Emitter<N, C, S>, name: N): (r: Emitter<N, C, S>)
    ensures Registered(r, name) == []
    ensures name !in e.listeners ==> r == e
    ensures OthersUntouched(e, r, name)
    ensures Valid(e) ==> Valid(r)
  {
    if name !in e.listeners then e
    else e.(listeners := e.listeners[name := []])
  }

  /** The listeners that survive an emission: every `once` wrapper has
      unregistered itself. */
  function Survivors<C(==,!new)>(ls: seq<Listener<C>>): (r: seq<Listener<C>>)
    ensures forall l :: l in r <==> l in ls && l.Plain?
    ensures |ls| == 1 ==> r == (if ls[0].Plain? then ls else [])
    ensures NoDup(ls) ==> NoDup(r)
  {
    if |ls| == 0 then []
    else
      var rest := Survivors(ls[1..]);
      if ls[0].Wrapped? then rest
      else
        var r := [ls[0]] + rest;
        assert NoDup(ls) ==> NoDup(r) by {
          if NoDup(ls) {
            assert forall k :: 0 <= k < |ls[1..]| ==> ls[1..][k] != ls[0];
            assert ls[0] !in rest;
            assert forall j :: 0 < j < |r| ==> r[j] == rest[j - 1] && r[j] in rest;
          }
        }
        r
  }

  /** The survivors of a concatenation are the survivors of each part, in
      order: with the one-element case, plain listeners keep their relative
      order and wrappers drop out. */
  lemma {:induction false} SurvivorsConcat<C(!new)>(a: seq<Listener<C>>, b: seq<Listener<C>>)
    ensures Survivors(a + b) == Survivors(a) + Survivors(b)
    decreases |a|
  {
    if |a| == 0 {
      assert a + b == b;
    } else {
      assert (a + b)[0] == a[0] && (a + b)[1..] == a[1..] + b;
      SurvivorsConcat(a[1..], b);
    }
  }

  /** `emit(name)`: runs the listeners registered under `name`, in
      registration order; each `once` wrapper unregisters itself as it runs.
      The second component lists the listeners run. */
  function Emit<N(==,!new), C(==,!new), S(==)>(e: Emitter<N, C, S>, name: N): (r: (Emitter<N, C, S>, seq<Listener<C>>))
    ensures r.1 == Registered(e, name)
    ensures forall l :: l in Registered(r.0, name) <==> l in Registered(e, name) && l.Plain?
    ensures Registered(r.0, name) == Survivors(Registered(e, name))
    ensures OthersUntouched(e, r.0, name)
    ensures Registered(e, name) == [] ==> r.0 == e
    ensures Valid(e) ==> Valid(r.0)
  {
    if name !in e.listeners || e.listeners[name] == [] then (e, Registered(e, name))
    else (e.(listeners := e.listeners[name := Survivors(e.listeners[name])]), e.listeners[name])
  }

  /** Runs the abort hooks of one signal, in the order they were added. */
  function RunHooks<N(==,!new), C(==,!new), S(==)>(e: Emitter<N, C, S>, pending: seq<(N, Listener<C>)>): (r: Emitter<N, C, S>)
    ensures forall h :: h in pending ==> h.1 !in Registered(r, h.0)
    ensures forall n, l :: l in Registered(e, n) && (n, l) !in pending ==> l in Registered(r, n)
    ensures forall n, l :: l in Registered(r, n) ==> l in Registered(e, n)
    ensures r.hooks == e.hooks && r.fired == e.fired && r.nextWrapper == e.nextWrapper
    ensures Valid(e) ==> Valid(r)
    decreases |pending|
  {
    if |pending| == 0 then e
    else RunHooks(Off(e, pending[0].0, pending[0].1), pending[1..])
  }

  /** The signal fires: every listener registered with it is unregistered.
      A signal fires at most once. */
  function Abort<N(==,!new), C(==,!new), S(==,!new)>(e: Emitter<N, C, S>, s: S): (r: Emitter<N, C, S>)
    ensures s in e.fired ==> r == e
    ensures s !in e.fired && s in e.hooks ==> forall h :: h in e.hooks[s] ==> h.1 !in Registered(r, h.0)
    ensures r.fired == e.fired + {s}
    ensures s !in e.fired ==> s !in r.hooks
    ensures forall n, l :: l in Registered(r, n) ==> l in Registered(e, n)
    ensures forall n, l :: l in Registered(e, n) && (s in e.fired || s !in e.hooks || (n, l) !in e.hooks[s]) ==>
              l in Registered(r, n)
    ensures forall t :: t != s ==> (t in r.hooks <==> t in e.hooks) && (t in e.hooks ==> r.hooks[t] == e.hooks[t])
    ensures r.nextWrapper == e.nextWrapper
    ensures Valid(e) ==> Valid(r)
  {
    if s in e.fired then e
    else
      var pending := if s in e.hooks then e.hooks[s] else [];
      var r := RunHooks(e, pending);
      r.(hooks := r.hooks - {s}, fired := r.fired + {s})
  }

  /** The function returned by `on` removes exactly the listener `on` added:
      if `cb` was not registered under `name` before, the name's listeners are
      back to what they were. */
  lemma UnsubscribeUndoesOn<N(!new), C(!new), S>(e: Emitter<N, C, S>, name: N, cb: C, signal: Option<S>)
    requires Valid(e)
    requires Plain(cb) !in Registered(e, name)
    ensures var (e1, l) := On(e, name, cb, signal);
            && Registered(Off(e1, name, l), name) == Registered(e, name)
            && OthersUntouched(e, Off(e1, name, l), name)
  {
    var (e1, l) := On(e, name, cb, signal);
    var before := Registered(e, name);
    assert Registered(e1, name) == before + [l];
    RemoveLast(before, l);
  }

  /** Removing the last element of a sequence that holds it only there. */
  lemma {:induction false} RemoveLast<T(!new)>(s: seq<T>, x: T)
    requires x !in s
    ensures Remove(s + [x], x) == s
  {
    if |s| > 0 {
      assert (s + [x])[1..] == s[1..] + [x];
      RemoveLast(s[1..], x);
    } else {
      assert s + [x] == [x];
    }
  }

  /** Aborting the signal passed to `on` unregisters that listener. */
  lemma AbortUnsubscribes<N(!new), C(!new), S(!new)>(e: Emitter<N, C, S>, name: N, cb: C, s: S)
    requires s !in e.fired
    ensures var (e1, l) := On(e, name, cb, Some(s));
            l !in Registered(Abort(e1, s), name)
  {
    var (e1, l) := On(e, name, cb, Some(s));
    assert (name, l) in e1.hooks[s];
  }

  /** A `once` listener runs at the first emission of its name, and the
      emission right after it runs only the plain listeners
      (`OnceNeverRunsAgain` covers every later emission). */
  lemma OnceRunsAtMostOnce<N(!new), C(!new), S>(e: Emitter<N, C, S>, name: N, cb: C, signal: Option<S>)
    requires Valid(e)
    ensures var (e1, w) := Once(e, name, cb, signal);
            var (e2, first) := Emit(e1, name);
            var (_, second) := Emit(e2, name);
            && w in first
            && w !in second
            && forall l :: l in second ==> l.Plain?
  {
  }

  /** One call on the emitter. */
  datatype Call<N, C, S> =
    | CallOn(name: N, cb: C, signal: Option<S>)
    | CallOnce(name: N, cb: C, signal: Option<S>)
    | CallOff(name: N, l: Listener<C>)
    | CallOffAll(name: N)
    | CallEmit(name: N)
    | CallAbort(s: S)

  /** Applies one call; the second component lists the listeners it ran
      (only an emission runs any). */
  function ApplyCall<N(==,!new), C(==,!new), S(==,!new)>(e: Emitter<N, C, S>, c: Call<N, C, S>): (Emitter<N, C, S>, seq<Listener<C>>)
  {
    match c
    case CallOn(n, cb, sig) => (On(e, n, cb, sig).0, [])
    case CallOnce(n, cb, sig) => (Once(e, n, cb, sig).0, [])
    case CallOff(n, l) => (Off(e, n, l), [])
    case CallOffAll(n) => (OffAll(e, n), [])
    case CallEmit(n) => Emit(e, n)
    case CallAbort(sig) => (Abort(e, sig), [])
  }

  /** Applies calls in order, collecting every listener run. */
  function RunCalls<N(==,!new), C(==,!new), S(==,!new)>(e: Emitter<N, C, S>, calls: seq<Call<N, C, S>>): (Emitter<N, C, S>, seq<Listener<C>>)
    decreases |calls|
  {
    if |calls| == 0 then (e, [])
    else
      var (e1, ran) := ApplyCall(e, calls[0]);
      var (e2, rest) := RunCalls(e1, calls[1..]);
      (e2, ran + rest)
  }

  /** A wrapper that is registered under no name and whose id the counter
      has passed: no later call can register it again. */
  ghost predicate Gone<N(!new), C, S>(e: Emitter<N, C, S>, w: Listener<C>)
  {
    w.Wrapped? && w.wrapper < e.nextWrapper && forall n :: w !in Registered(e, n)
  }

  /** No single call runs a gone wrapper or brings it back. */
  lemma CallKeepsGone<N(!new), C(!new), S(!new)>(e: Emitter<N, C, S>, w: Listener<C>, c: Call<N, C, S>)
    requires Gone(e, w)
    ensures Gone(ApplyCall(e, c).0, w) && w !in ApplyCall(e, c).1
  {
    var r := ApplyCall(e, c).0;
    match c {
      case CallOn(n, cb, sig) =>
        assert forall m :: w !in Registered(r, m) by {
          forall m ensures w !in Registered(r, m) {
            if m != n { assert Registered(r, m) == Registered(e, m); }
          }
        }
      case CallOnce(n, cb, sig) =>
        assert forall m :: w !in Registered(r, m) by {
          forall m ensures w !in Registered(r, m) {
            if m != n { assert Registered(r, m) == Registered(e, m); }
          }
        }
      case CallOff(n, l) =>
        assert forall m :: w !in Registered(r, m) by {
          forall m ensures w !in Registered(r, m) {
            if m != n { assert Registered(r, m) == Registered(e, m); }
          }
        }
      case CallOffAll(n) =>
        assert forall m :: w !in Registered(r, m) by {
          forall m ensures w !in Registered(r, m) {
            if m != n { assert Registered(r, m) == Registered(e, m); }
          }
        }
      case CallEmit(n) =>
        assert forall m :: w !in Registered(r, m) by {
          forall m ensures w !in Registered(r, m) {
            if m != n { assert Registered(r, m) == Registered(e, m); }
          }
        }
      case CallAbort(sig) =>
    }
  }

  /** Over any sequence of calls, a gone wrapper is never run again. */
  lemma {:induction false} GoneNeverRuns<N(!new), C(!new), S(!new)>(e: Emitter<N, C, S>, w: Listener<C>, calls: seq<Call<N, C, S>>)
    requires Gone(e, w)
    ensures w !in RunCalls(e, calls).1
    decreases |calls|
  {
    if |calls| > 0 {
      CallKeepsGone(e, w, calls[0]);
      GoneNeverRuns(ApplyCall(e, calls[0]).0, w, calls[1..]);
    }
  }

  /** A `once` listener runs at the first emission of its name and never
      again: whatever calls follow (`on`, `once`, `off`, `offAll`, aborts and
      further emissions of any name), none of them runs it. */
  lemma OnceNeverRunsAgain<N(!new), C(!new), S(!new)>(e: Emitter<N, C, S>, name: N, cb: C, signal: Option<S>, calls: seq<Call<N, C, S>>)
    requires Valid(e)
    ensures var (e1, w) := Once(e, name, cb, signal);
            var (e2, first) := Emit(e1, name);
            && w in first
            && w !in RunCalls(e2, calls).1
  {
    var (e1, w) := Once(e, name, cb, signal);
    var (e2, first) := Emit(e1, name);
    assert forall n :: w !in Registered(e2, n) by {
      forall n ensures w !in Registered(e2, n) {
        if n != name {
          assert Registered(e2, n) == Registered(e1, n) == Registered(e, n);
          assert w.wrapper == e.nextWrapper;
        }
      }
    }
    GoneNeverRuns(e2, w, calls);
  }
}

=== FILE: handler.dfy ===
/** The request handler of one namespace (`createHandler`).

    Its state is the port registry, the seen-key set, the registry of live
    subscriptions keyed by (clientId, namespace, id), and a counter standing in
    for the random idempotency-key generator. `Step` consumes one inbound
    message from a port whose sender sits in `senderTab` and returns the new
    state, the messages broadcast (in order), the tab they are aimed at, the
    resulting `postMessage` calls, and the subscription whose abort capability
    was invoked, if any.

    The procedure a request names is looked up and invoked outside the model:
    its outcome comes in as `result`, consulted only when a procedure runs.
    The whole of a successful subscription (ack, every chunk, stop) happens
    within the one step that starts it. */
module Handler {
  import opened Wrappers
  import opened Seqs
  import opened Bridge
  import opened Ports
  import Idempotency

  /** The handler's namespace and the name werpc ports carry. */
  datatype Config = Config(namespace: string, channel: string)

  /** The registry key `${clientId}:${namespace}:${id}`, kept as a triple. */
  datatype SubKey = SubKey(clientId: Key, namespace: string, id: int)

  datatype State = State(
    ports: seq<Port>,
    seen: Idempotency.Manager,
    live: set<SubKey>,
    nextKey: nat)

  /** What invoking the procedure at the request's path did: returned a value
      (possibly a stream), or threw (including a path that names nothing). */
  datatype ProcResult = Returned(value: Value) | Threw

  datatype StepOut = StepOut(
    state: State,
    outbound: seq<Message>,
    target: Option<int>,
    sends: seq<Send>,
    aborted: Option<SubKey>)

  predicate Valid(s: State)
  {
    NoDup(s.ports) && Idempotency.Valid(s.seen)
  }

  /** The handler as created: only the local port (outside a service worker),
      nothing seen, nothing live. */
  function Init(ttl: nat, inServiceWorker: bool): (s: State)
    requires ttl > 0
    ensures Valid(s)
    ensures s.live == {}
    ensures Local in s.ports <==> !inServiceWorker
  {
    State(Initial(inServiceWorker), Idempotency.Create(ttl), {}, 0)
  }

  /** `scopeToTab` is truthy. */
  predicate Scoped(c: Context)
  {
    c.scopeToTab == Some(true)
  }

  function KeyOf(req: RequestPayload): SubKey
  {
    SubKey(req.context.clientId, req.context.namespace, req.id)
  }

  /** The idempotency key of a message the handler recognises: the event's if
      it parses as an event, else the request's if it parses as a request. */
  function MessageKey(m: Message): Option<Key>
  {
    match ParseEvent(m)
    case Some(ev) => Some(ev.idempotencyKey)
    case None =>
      match ParseRequest(m)
      case Some(req) => Some(req.idempotencyKey)
      case None => None
  }

  /** Broadcasts `outbound`, in order, to the ports aimed at by `target`. */
  function Broadcast(s: State, outbound: seq<Message>, target: Option<int>): StepOut
  {
    StepOut(s, outbound, target, FanOut(s.ports, target, outbound), None)
  }

  /** No message goes out and nothing is aborted. */
  function Quiet(s: State): StepOut
  {
    Broadcast(s, [], None)
  }

  /** An inbound event: unless it is a duplicate, it is re-broadcast with its
      `tabId` filled in from the sender's tab when it had none, aimed at that
      tab only when `scopeToTab` is set. */
  function OnEvent(s: State, ev: EventPayload, senderTab: Option<int>): (o: StepOut)
    ensures o.sends == FanOut(s.ports, o.target, o.outbound)
    ensures o.state == s.(seen := Idempotency.IsDuplicate(s.seen, ev.idempotencyKey).0)
    ensures o.aborted.None?
    ensures ev.idempotencyKey in s.seen.expiry ==> o.outbound == [] && o.state == s
    ensures ev.idempotencyKey !in s.seen.expiry ==>
              && |o.outbound| == 1
              && ParseEvent(o.outbound[0]).Some?
              && var out := ParseEvent(o.outbound[0]).value;
              && out == ev.(context := ev.context.(tabId := out.context.tabId))
              && (ev.context.tabId.Some? ==> out == ev)
              && (ev.context.tabId.None? ==> out.context.tabId == senderTab)
              && o.target == (if Scoped(ev.context) then out.context.tabId else None)
  {
    var (seen, dup) := Idempotency.IsDuplicate(s.seen, ev.idempotencyKey);
    if dup then Quiet(s)
    else
      var stamped := ev.(context := ev.context.(tabId := ev.context.tabId.OrElse(senderTab)));
      var target := if Scoped(stamped.context) then stamped.context.tabId else None;
      Broadcast(s.(seen := seen), [EventMessage(stamped)], target)
  }

  /** One event of a subscription's lifecycle. */
  function LifecycleEvent(ctx: Context, id: int, key: Key, t: EventType, output: Value): Message
  {
    EventMessage(EventPayload(key, ctx, id, EventTypeName(t), output))
  }

  /** The events a started subscription emits, with consecutive keys from
      `firstKey` on: an ack, one output per chunk, a stop. */
  function LifecycleEvents(ctx: Context, id: int, chunks: seq<Value>, firstKey: Key): (r: seq<Message>)
    ensures |r| == |chunks| + 2
  {
    [LifecycleEvent(ctx, id, firstKey, SubscriptionAck, EmptyObject)]
    + seq(|chunks|, i requires 0 <= i < |chunks| =>
          LifecycleEvent(ctx, id, firstKey + 1 + i, SubscriptionOutput, chunks[i]))
    + [LifecycleEvent(ctx, id, firstKey + |chunks| + 1, SubscriptionStop, EmptyObject)]
  }

  /** The shape a subscription's event sequence must have: the ack first, then
      exactly one `subscription.output` per chunk in chunk order, then exactly
      one `subscription.stop`; all addressed with `ctx` and `id`, and the i-th
      carrying key `firstKey + i`. */
  ghost predicate IsLifecycle(msgs: seq<Message>, ctx: Context, id: int, chunks: seq<Value>, firstKey: Key)
  {
    && |msgs| == |chunks| + 2
    && (forall i :: 0 <= i < |msgs| ==>
          && ParseEvent(msgs[i]).Some?
          && ParseEvent(msgs[i]).value.idempotencyKey == firstKey + i
          && ParseEvent(msgs[i]).value.context == ctx
          && ParseEvent(msgs[i]).value.id == id)
    && ParseEvent(msgs[0]).value.kind == "subscription.ack"
    && (forall i :: 0 <= i < |chunks| ==>
          && ParseEvent(msgs[i + 1]).value.kind == "subscription.output"
          && ParseEvent(msgs[i + 1]).value.output == chunks[i])
    && ParseEvent(msgs[|chunks| + 1]).value.kind == "subscription.stop"
  }

  lemma LifecycleEventsShape(ctx: Context, id: int, chunks: seq<Value>, firstKey: Key)
    ensures IsLifecycle(LifecycleEvents(ctx, id, chunks, firstKey), ctx, id, chunks, firstKey)
  {
    var r := LifecycleEvents(ctx, id, chunks, firstKey);
    var ack := [LifecycleEvent(ctx, id, firstKey, SubscriptionAck, EmptyObject)];
    var outs := seq(|chunks|, i requires 0 <= i < |chunks| =>
                    LifecycleEvent(ctx, id, firstKey + 1 + i, SubscriptionOutput, chunks[i]));
    var stop := [LifecycleEvent(ctx, id, firstKey + |chunks| + 1, SubscriptionStop, EmptyObject)];
    assert r == ack + outs + stop;
    forall i | 0 <= i < |r|
      ensures && ParseEvent(r[i]).Some?
              && ParseEvent(r[i]).value.idempotencyKey == firstKey + i
              && ParseEvent(r[i]).value.context == ctx
              && ParseEvent(r[i]).value.id == id
    {
      if i == 0 {
        assert r[i] == ack[0];
      } else if i <= |chunks| {
        assert r[i] == outs[i - 1];
      } else {
        assert r[i] == stop[0];
      }
    }
    forall i | 0 <= i < |chunks|
      ensures r[i + 1] == LifecycleEvent(ctx, id, firstKey + 1 + i, SubscriptionOutput, chunks[i])
    {
      assert r[i + 1] == outs[i];
    }
    assert r[0] == ack[0];
    assert r[|chunks| + 1] == stop[0];
  }

  /** Every event of a lifecycle carries its own key, drawn from the counter
      range [firstKey, firstKey + |msgs|). */
  lemma LifecycleKeysFresh(msgs: seq<Message>, ctx: Context, id: int, chunks: seq<Value>, firstKey: Key)
    requires IsLifecycle(msgs, ctx, id, chunks, firstKey)
    ensures forall i, j :: 0 <= i < j < |msgs| ==>
              ParseEvent(msgs[i]).value.idempotencyKey != ParseEvent(msgs[j]).value.idempotencyKey
    ensures forall i :: 0 <= i < |msgs| ==>
              firstKey <= ParseEvent(msgs[i]).value.idempotencyKey < firstKey + |msgs|
  {
  }

  /** A request addressed to this namespace, other than a stop, once its
      procedure has returned `v`. */
  function Invoked(cfg: Config, s: State, req: RequestPayload, tabId: Option<int>, target: Option<int>, v: Value): StepOut
  {
    if req.kind == RequestTypeName(StartSubscription) then
      if KeyOf(req) in s.live || !v.Stream? then Quiet(s)
      else
        var ctx := Context(req.context.clientId, req.context.clientName, cfg.namespace, tabId, req.context.scopeToTab);
        var events := LifecycleEvents(ctx, req.id, v.chunks, s.nextKey);
        Broadcast(s.(live := s.live + {KeyOf(req)}, nextKey := s.nextKey + |events|), events, target)
    else
      var output := EventPayload(s.nextKey, req.context, req.id, EventTypeName(Output), v);
      Broadcast(s.(nextKey := s.nextKey + 1), [EventMessage(output)], target)
  }

  /** A request that is not a duplicate. Its tab is its own `tabId`, else the
      sender's; its events are aimed at that tab only when `scopeToTab` is set.
      - another namespace: flood-forwarded with the resolved tab, nothing else;
      - `subscription.stop`: the live entry, if any, is aborted and removed;
        no event;
      - the procedure threw: nothing;
      - `subscription.start`: refused, silently, when the key is already live
        or the result is not a stream; otherwise registered, and the whole
        lifecycle is emitted under fresh keys and the handler's namespace (the
        entry stays after the stream ends);
      - anything else: one `output` event carrying the result, addressed with
        the request's own context. */
  function Route(cfg: Config, s: State, req: RequestPayload, senderTab: Option<int>, result: ProcResult): (o: StepOut)
    ensures o.sends == FanOut(s.ports, o.target, o.outbound)
    ensures o.state.ports == s.ports && o.state.seen == s.seen
    ensures o.state.nextKey >= s.nextKey
    ensures var tabId := req.context.tabId.OrElse(senderTab);
            o.outbound != [] ==> o.target == (if Scoped(req.context) then tabId else None)
    ensures req.context.namespace != cfg.namespace ==>
              && o.state == s && o.aborted.None?
              && |o.outbound| == 1
              && ParseRequest(o.outbound[0]).Some?
              && var fwd := ParseRequest(o.outbound[0]).value;
              && fwd == req.(context := req.context.(tabId := req.context.tabId.OrElse(senderTab)))
    ensures req.context.namespace == cfg.namespace && req.kind == "subscription.stop" ==>
              && o.outbound == []
              && o.state == s.(live := s.live - {KeyOf(req)})
              && o.aborted == (if KeyOf(req) in s.live then Some(KeyOf(req)) else None)
    ensures req.context.namespace == cfg.namespace && req.kind != "subscription.stop" ==> o.aborted.None?
    ensures req.context.namespace == cfg.namespace && req.kind != "subscription.stop" && result.Threw? ==>
              o.outbound == [] && o.state == s
    ensures req.context.namespace == cfg.namespace && req.kind == "subscription.start" && result.Returned?
            && (KeyOf(req) in s.live || !result.value.Stream?) ==>
              o.outbound == [] && o.state == s
    ensures req.context.namespace == cfg.namespace && req.kind == "subscription.start" && result.Returned?
            && KeyOf(req) !in s.live && result.value.Stream? ==>
              && o.state.live == s.live + {KeyOf(req)}
              && o.state.nextKey == s.nextKey + |o.outbound|
              && IsLifecycle(o.outbound,
                   Context(req.context.clientId, req.context.clientName, cfg.namespace,
                           req.context.tabId.OrElse(senderTab), req.context.scopeToTab),
                   req.id, result.value.chunks, s.nextKey)
    ensures req.context.namespace == cfg.namespace && req.kind != "subscription.stop"
            && req.kind != "subscription.start" && result.Returned? ==>
              && o.state == s.(nextKey := s.nextKey + 1)
              && o.outbound == [EventMessage(EventPayload(s.nextKey, req.context, req.id, "output", result.value))]
  {
    var tabId := req.context.tabId.OrElse(senderTab);
    var target := if Scoped(req.context) then tabId else None;
    if req.context.namespace != cfg.namespace then
      Broadcast(s, [RequestMessage(req.(context := req.context.(tabId := tabId)))], target)
    else if req.kind == RequestTypeName(StopSubscription) then
      var key := KeyOf(req);
      StepOut(s.(live := s.live - {key}), [], None, [], if key in s.live then Some(key) else None)
    else
      match result
      case Threw => Quiet(s)
      case Returned(v) =>
        var o := Invoked(cfg, s, req, tabId, target, v);
        if req.kind == RequestTypeName(StartSubscription) && KeyOf(req) !in s.live && v.Stream? then
          var ctx := Context(req.context.clientId, req.context.clientName, cfg.namespace, tabId, req.context.scopeToTab);
          LifecycleEventsShape(ctx, req.id, v.chunks, s.nextKey);
          o
        else o
  }

  /** `onMessage`: an event is handled as an event even if it also carries a
      request; a request is checked against the seen keys before anything
      else; anything else is dropped. */
  function Step(cfg: Config, s: State, msg: Message, senderTab: Option<int>, result: ProcResult): (o: StepOut)
    ensures o.sends == FanOut(s.ports, o.target, o.outbound)
    ensures o.state.ports == s.ports
    ensures o.state.nextKey >= s.nextKey
    ensures Valid(s) ==> Valid(o.state)
    ensures MessageKey(msg).None? ==> o.state == s && o.outbound == [] && o.aborted.None?
    ensures MessageKey(msg).Some? ==> MessageKey(msg).value in o.state.seen.expiry
    ensures MessageKey(msg).Some? && MessageKey(msg).value in s.seen.expiry ==>
              o.state == s && o.outbound == [] && o.aborted.None?
    ensures ParseEvent(msg).Some? ==> o.state.live == s.live && o.aborted.None?
    ensures ParseEvent(msg).Some? ==> o == OnEvent(s, ParseEvent(msg).value, senderTab)
    ensures ParseEvent(msg).None? && ParseRequest(msg).Some? &&
            ParseRequest(msg).value.idempotencyKey !in s.seen.expiry ==>
              var req := ParseRequest(msg).value;
              o == Route(cfg, s.(seen := Idempotency.IsDuplicate(s.seen, req.idempotencyKey).0), req, senderTab, result)
    ensures ParseEvent(msg).None? && ParseRequest(msg).None? ==> o == Quiet(s)
  {
    match ParseEvent(msg)
    case Some(ev) => OnEvent(s, ev, senderTab)
    case None =>
      match ParseRequest(msg)
      case None => Quiet(s)
      case Some(req) =>
        var (seen, dup) := Idempotency.IsDuplicate(s.seen, req.idempotencyKey);
        if dup then Quiet(s)
        else Route(cfg, s.(seen := seen), req, senderTab, result)
  }

  /** Events are handled before requests: a message carrying both an event
      and a request is handled exactly as the event alone, and its request is
      neither routed nor recorded. */
  lemma EventWinsOverRequest(cfg: Config, s: State, ev: EventPayload, req: RequestPayload, senderTab: Option<int>, result: ProcResult)
    ensures Step(cfg, s, Envelope(Some(req), Some(ev)), senderTab, result) == Step(cfg, s, EventMessage(ev), senderTab, result)
    ensures var o := Step(cfg, s, Envelope(Some(req), Some(ev)), senderTab, result);
            o.state.live == s.live && o.aborted.None? &&
            (req.idempotencyKey != ev.idempotencyKey ==> (req.idempotencyKey in o.state.seen.expiry <==> req.idempotencyKey in s.seen.expiry))
  {
  }

  /** A runtime port connects (`onConnect`); only werpc-named ports join. */
  function OnConnect(cfg: Config, s: State, handle: nat, tab: Option<int>, portName: string): (r: State)
    ensures portName != cfg.channel ==> r == s
    ensures forall q :: q in r.ports <==> q in s.ports || (q == Remote(handle, tab) && portName == cfg.channel)
    ensures r.seen == s.seen && r.live == s.live && r.nextKey == s.nextKey
    ensures Valid(s) ==> Valid(r)
  {
    s.(ports := Connect(s.ports, handle, tab, portName, cfg.channel))
  }

  /** A runtime port disconnects; live subscriptions are left running and the
      local port stays. */
  function OnDisconnect(s: State, handle: nat, tab: Option<int>): (r: State)
    ensures forall q :: q in r.ports <==> q in s.ports && q != Remote(handle, tab)
    ensures Local in s.ports ==> Local in r.ports
    ensures r.seen == s.seen && r.live == s.live && r.nextKey == s.nextKey
    ensures Valid(s) ==> Valid(r)
  {
    s.(ports := Disconnect(s.ports, handle, tab))
  }

  /** Something that happens to a handler. */
  datatype Input =
    | Deliver(msg: Message, senderTab: Option<int>, result: ProcResult)
    | PortConnected(handle: nat, tab: Option<int>, name: string)
    | PortDisconnected(handle: nat, tab: Option<int>)
    | TimePasses(ms: nat)

  function Apply(cfg: Config, s: State, i: Input): StepOut
  {
    match i
    case Deliver(m, tab, res) => Step(cfg, s, m, tab, res)
    case PortConnected(h, tab, name) => Quiet(OnConnect(cfg, s, h, tab, name))
    case PortDisconnected(h, tab) => Quiet(OnDisconnect(s, h, tab))
    case TimePasses(ms) => Quiet(s.(seen := Idempotency.Tick(s.seen, ms)))
  }

  /** Applies inputs in order; the second component is every message
      broadcast, in order. */
  function Run(cfg: Config, s: State, inputs: seq<Input>): (State, seq<Message>)
    decreases |inputs|
  {
    if |inputs| == 0 then (s, [])
    else
      var o := Apply(cfg, s, inputs[0]);
      var (s', rest) := Run(cfg, o.state, inputs[1..]);
      (s', o.outbound + rest)
  }

  /** Deliveries whose keys have all been seen (and port churn) broadcast
      nothing and leave the seen keys, the live registry and the key counter
      as they were. */
  lemma {:induction false} SeenMessagesAreInert(cfg: Config, s: State, inputs: seq<Input>)
    requires forall i :: 0 <= i < |inputs| ==> !inputs[i].TimePasses?
    requires forall i :: 0 <= i < |inputs| && inputs[i].Deliver? ==>
               MessageKey(inputs[i].msg).Some? ==> MessageKey(inputs[i].msg).value in s.seen.expiry
    ensures var (s', out) := Run(cfg, s, inputs);
            out == [] && s'.seen == s.seen && s'.live == s.live && s'.nextKey == s.nextKey
    decreases |inputs|
  {
    if |inputs| > 0 {
      var o := Apply(cfg, s, inputs[0]);
      assert o.outbound == [] && o.state.seen == s.seen && o.state.live == s.live && o.state.nextKey == s.nextKey;
      SeenMessagesAreInert(cfg, o.state, inputs[1..]);
    }
  }

  /** Replaying a message any number of times after it was handled (with any
      sender and procedure outcome, before its key expires) broadcasts nothing
      more: every message is forwarded, dispatched or re-broadcast at most once. */
  lemma {:induction false} ReplayIsDropped(cfg: Config, s: State, msg: Message, senderTab: Option<int>, result: ProcResult, replays: seq<Input>)
    requires MessageKey(msg).Some?
    requires forall i :: 0 <= i < |replays| ==> replays[i].Deliver? && replays[i].msg == msg
    ensures var o := Step(cfg, s, msg, senderTab, result);
            var (s', out) := Run(cfg, o.state, replays);
            out == [] && s'.live == o.state.live && s'.nextKey == o.state.nextKey
  {
    var o := Step(cfg, s, msg, senderTab, result);
    SeenMessagesAreInert(cfg, o.state, replays);
  }

  /** A request this handler forwarded is dropped when it comes back. */
  lemma ForwardedEchoIsDropped(cfg: Config, s: State, req: RequestPayload, senderTab: Option<int>, echoTab: Option<int>, r1: ProcResult, r2: ProcResult)
    requires req.context.namespace != cfg.namespace
    requires req.idempotencyKey !in s.seen.expiry
    ensures var o := Step(cfg, s, RequestMessage(req), senderTab, r1);
            && |o.outbound| == 1
            && var echo := Step(cfg, o.state, o.outbound[0], echoTab, r2);
            && echo.outbound == [] && echo.sends == [] && echo.state == o.state
  {
    var o := Step(cfg, s, RequestMessage(req), senderTab, r1);
    assert MessageKey(o.outbound[0]) == Some(req.idempotencyKey);
  }

  /** A `subscription.stop` for `key` that reaches this handler's routing. */
  predicate StopsKey(cfg: Config, m: Message, key: SubKey)
  {
    && ParseEvent(m).None?
    && ParseRequest(m).Some?
    && var req := ParseRequest(m).value;
    && req.context.namespace == cfg.namespace
    && req.kind == "subscription.stop"
    && KeyOf(req) == key
  }

  /** One input other than a stop for `key` keeps `key` live. */
  lemma ApplyKeepsLive(cfg: Config, s: State, i: Input, key: SubKey)
    requires key in s.live
    requires i.Deliver? ==> !StopsKey(cfg, i.msg, key)
    ensures key in Apply(cfg, s, i).state.live
  {
  }

  /** A live subscription stays registered until a stop for its key arrives:
      neither the end of its stream, nor port churn, nor time removes it. */
  lemma {:induction false} LiveUntilStopped(cfg: Config, s: State, inputs: seq<Input>, key: SubKey)
    requires key in s.live
    requires forall i :: 0 <= i < |inputs| && inputs[i].Deliver? ==> !StopsKey(cfg, inputs[i].msg, key)
    ensures key in Run(cfg, s, inputs).0.live
    decreases |inputs|
  {
    if |inputs| > 0 {
      ApplyKeepsLive(cfg, s, inputs[0], key);
      LiveUntilStopped(cfg, Apply(cfg, s, inputs[0]).state, inputs[1..], key);
    }
  }

  /** Starting a subscription whose key is already live emits nothing: no
      second ack, whatever the procedure returns. */
  lemma RestartWhileLiveIsRefused(cfg: Config, s: State, req: RequestPayload, senderTab: Option<int>, result: ProcResult)
    requires req.context.namespace == cfg.namespace
    requires req.kind == "subscription.start"
    requires KeyOf(req) in s.live
    ensures var o := Step(cfg, s, RequestMessage(req), senderTab, result);
            o.outbound == [] && o.sends == [] && o.state.live == s.live && o.state.nextKey == s.nextKey
  {
  }
}

=== FILE: idempotency.dfy ===
/** The seen-key set with TTL eviction (`IdempotencyManager`).

    The source keeps a `Set` of keys and, on the first observation of a key,
    arms a `setTimeout` that deletes it after a fixed TTL. Here time is a
    logical clock in milliseconds: each recorded key maps to the instant at
    which its eviction timer fires, and `Tick` advances the clock, firing every
    timer that is due. A key is recorded only while absent and its timer
    deletes it, so at most one timer per key is ever pending and the map
    describes the timers exactly. */
module Idempotency {

  /** Idempotency keys. The source draws them as random strings; the model
      draws fresh ones from counters, so two keys issued by one counter never
      coincide. (Client ids reuse this type, but they are parameters.) */
  type Key = nat

  datatype Manager = Manager(now: nat, ttl: nat, expiry: map<Key, nat>)

  /** Every recorded key has its timer pending, at most one TTL ahead. */
  predicate Valid(m: Manager)
  {
    && m.ttl > 0
    && forall k :: k in m.expiry ==> m.now < m.expiry[k] <= m.now + m.ttl
  }

  /** A fresh manager: nothing seen. */
  function Create(ttl: nat): (m: Manager)
    requires ttl > 0
    ensures Valid(m)
    ensures forall k :: k !in m.expiry
  {
    Manager(0, ttl, map[])
  }

  /** `isDuplicate(key)`: true when the key is recorded; otherwise records it
      with a timer one TTL ahead and answers false. */
  function IsDuplicate(m: Manager, k: Key): (r: (Manager, bool))
    ensures r.1 <==> k in m.expiry
    ensures r.1 ==> r.0 == m
    ensures k in r.0.expiry
    ensures !r.1 ==> r.0.expiry[k] == m.now + m.ttl
    ensures r.0.now == m.now && r.0.ttl == m.ttl
    ensures forall j :: j != k ==> (j in r.0.expiry <==> j in m.expiry)
    ensures forall j :: j != k && j in m.expiry ==> r.0.expiry[j] == m.expiry[j]
    ensures Valid(m) ==> Valid(r.0)
  {
    if k in m.expiry then (m, true)
    else (m.(expiry := m.expiry[k := m.now + m.ttl]), false)
  }

  /** Lets `elapsed` milliseconds pass: every eviction timer due by then fires. */
  function Tick(m: Manager, elapsed: nat): (r: Manager)
    ensures r.now == m.now + elapsed && r.ttl == m.ttl
    ensures forall k :: k in r.expiry <==> k in m.expiry && r.now < m.expiry[k]
    ensures forall k :: k in r.expiry ==> r.expiry[k] == m.expiry[k]
    ensures Valid(m) ==> Valid(r)
  {
    var later := m.now + elapsed;
    m.(now := later, expiry := map k | k in m.expiry && later < m.expiry[k] :: m.expiry[k])
  }

  /** Once a key's TTL has elapsed it is forgotten, and the next observation
      of it is a first observation again. */
  lemma ForgottenAfterTtl(m: Manager, k: Key)
    requires Valid(m)
    ensures var m1 := Tick(IsDuplicate(m, k).0, m.ttl);
            k !in m1.expiry && !IsDuplicate(m1, k).1
  {
    var m0 := IsDuplicate(m, k).0;
    assert m0.expiry[k] <= m.now + m.ttl;
  }

  /** One thing that can happen to a manager: a key is observed, or time passes. */
  datatype Happening = Observe(key: Key) | Elapse(ms: nat)

  /** Applies one happening; the answer is that of `isDuplicate` (false for `Elapse`). */
  function Apply(m: Manager, h: Happening): (Manager, bool)
  {
    match h
    case Observe(k) => IsDuplicate(m, k)
    case Elapse(ms) => (Tick(m, ms), false)
  }

  /** Applies a trace of happenings in order, collecting the answers. */
  function Run(m: Manager, trace: seq<Happening>): (r: (Manager, seq<bool>))
    ensures |r.1| == |trace|
    decreases |trace|
  {
    if |trace| == 0 then (m, [])
    else
      var (m1, a) := Apply(m, trace[0]);
      var (m2, answers) := Run(m1, trace[1..]);
      (m2, [a] + answers)
  }

  /** Total time that passes during a trace. */
  function Elapsed(trace: seq<Happening>): nat
  {
    if |trace| == 0 then 0
    else (if trace[0].Elapse? then trace[0].ms else 0) + Elapsed(trace[1..])
  }

  /** How many observations of `k` in the trace were answered "not a duplicate". */
  function FirstSightings(trace: seq<Happening>, answers: seq<bool>, k: Key): nat
    requires |answers| == |trace|
  {
    if |trace| == 0 then 0
    else (if trace[0] == Observe(k) && !answers[0] then 1 else 0)
         + FirstSightings(trace[1..], answers[1..], k)
  }

  /** Replay cannot extend a key's lifetime: until its original eviction
      instant, however often it is observed again, every observation is a
      duplicate and its eviction instant stays where the first observation
      put it. */
  lemma {:induction false} ReplayKeepsExpiry(m: Manager, trace: seq<Happening>, k: Key)
    requires k in m.expiry
    requires m.now + Elapsed(trace) < m.expiry[k]
    ensures var r := Run(m, trace);
            && k in r.0.expiry
            && r.0.expiry[k] == m.expiry[k]
            && FirstSightings(trace, r.1, k) == 0
    decreases |trace|
  {
    if |trace| > 0 {
      var (m1, a) := Apply(m, trace[0]);
      assert k in m1.expiry && m1.expiry[k] == m.expiry[k];
      assert m1.now + Elapsed(trace[1..]) == m.now + Elapsed(trace);
      ReplayKeepsExpiry(m1, trace[1..], k);
      assert trace[0] == Observe(k) ==> a;
      assert Run(m, trace).1[1..] == Run(m1, trace[1..]).1;
    }
  }

  /** Within one retention window, `isDuplicate(k)` answers false at most once. */
  lemma {:induction false} AtMostOneFirstSightingPerWindow(m: Manager, trace: seq<Happening>, k: Key)
    requires Valid(m)
    requires Elapsed(trace) < m.ttl
    ensures FirstSightings(trace, Run(m, trace).1, k) <= 1
    decreases |trace|
  {
    if |trace| > 0 {
      var (m1, a) := Apply(m, trace[0]);
      assert Run(m, trace).1[1..] == Run(m1, trace[1..]).1;
      assert Valid(m1);
      if trace[0] == Observe(k) && !a {
        assert m1.expiry[k] == m.now + m.ttl;
        assert m1.now == m.now;
        ReplayKeepsExpiry(m1, trace[1..], k);
      } else {
        AtMostOneFirstSightingPerWindow(m1, trace[1..], k);
      }
    }
  }
}

=== FILE: legacy.dfy ===
/** The first-generation client (`src/client.ts`, `src/link.ts`).

    Here one plain map from `namespace:id` to a callback is shared by every
    namespace's link. Links post requests without a client id (the client
    never passes one) and with no acknowledgement or resend; the client
    reads events from a `werpc` field (after checking for a `werpc_event`
    field, see `OnMessageAsWritten`) and does no duplicate suppression. Its
    message shapes are its own, so they are declared here rather than taken
    from the bridge schemas. */
module Legacy {
  import opened Wrappers
  import opened Bridge
  import opened Operations
  import opened ClientProxy

  /** A request as the legacy link posts it. */
  datatype LegacyRequest = LegacyRequest(
    clientId: Option<Key>,
    namespace: string,
    idempotencyKey: Key,
    id: int,
    path: string,
    input: Value,
    kind: string)

  /** The event the legacy client reads from a message's `werpc` field. */
  datatype LegacyEvent = LegacyEvent(idempotencyKey: Key, namespace: string, id: int, kind: string, output: Value)

  /** An inbound message: an object with or without a `werpc_event` field
      (whose value the gate does not inspect) and a `werpc` field, or
      anything else. */
  datatype LegacyMessage = LegacyEnvelope(werpcEvent: Option<Value>, werpc: Option<LegacyEvent>) | LegacyNotAnObject

  /** The read of an inbound message the handler's destructuring intends:
      the event under `werpc`, if there is one. */
  function Parse(msg: LegacyMessage): (r: Option<LegacyEvent>)
    ensures r.Some? <==> msg.LegacyEnvelope? && msg.werpc.Some?
    ensures r.Some? ==> r.value == msg.werpc.value
  {
    if msg.LegacyEnvelope? then msg.werpc else None
  }

  /** An event wrapped under `werpc` reads back as itself, whatever else the
      message holds, and a message without one reads as nothing. */
  lemma ParseRoundTrip(ev: LegacyEvent, other: Option<Value>)
    ensures Parse(LegacyEnvelope(other, Some(ev))) == Some(ev)
    ensures Parse(LegacyEnvelope(other, None)) == None
    ensures Parse(LegacyNotAnObject) == None
  {
  }

  /** The port's message handler as the code runs it: the safe parse admits
      only objects with a `werpc_event` field and strips every other field,
      so the `werpc` field read next is always missing and destructuring it
      throws. No message ever changes the callbacks or runs one; the flag
      says whether the handler threw. */
  function OnMessageAsWritten(listeners: Listeners, msg: LegacyMessage): (r: (Listeners, seq<(nat, Notification)>, bool))
    ensures r.0 == listeners && r.1 == []
    ensures r.2 <==> msg.LegacyEnvelope? && msg.werpcEvent.Some?
  {
    if msg.LegacyEnvelope? && msg.werpcEvent.Some? then (listeners, [], true)
    else (listeners, [], false)
  }

  /** `op.type` as the string the link posts for queries and mutations. */
  function KindName(k: OpKind): string
  {
    match k
    case QueryOp => "query"
    case MutationOp => "mutation"
    case SubscriptionOp => "subscription"
  }

  /** The stored callback: which operation's observer it feeds, and whether
      it completes after a value (every kind but a subscription). */
  datatype Callback = Callback(handle: nat, kind: OpKind)

  type Listeners = map<(string, int), Callback>

  /** A namespace's link, as the legacy client builds it. */
  datatype LegacyLink = LegacyLink(clientId: Option<Key>, namespace: string)

  datatype LinkOut = LinkOut(listeners: Listeners, posts: seq<LegacyRequest>, notes: seq<Notification>, nextKey: nat)

  /** Opening an operation: the callback is stored under `namespace:id`,
      replacing any there; a subscription reports started at once, with no
      acknowledgement; one request goes out, with a fresh key. */
  function Begin(link: LegacyLink, listeners: Listeners, op: Operation, handle: nat, nextKey: nat): (r: LinkOut)
    ensures r.listeners == listeners[(link.namespace, op.id) := Callback(handle, op.kind)]
    ensures r.notes == (if op.kind == SubscriptionOp then [Started] else [])
    ensures |r.posts| == 1
    ensures r.posts[0] == LegacyRequest(link.clientId, link.namespace, nextKey, op.id, op.path, op.input,
                                        if op.kind == SubscriptionOp then "subscription.start" else KindName(op.kind))
    ensures r.nextKey == nextKey + 1
  {
    var kind := if op.kind == SubscriptionOp then "subscription.start" else KindName(op.kind);
    LinkOut(listeners[(link.namespace, op.id) := Callback(handle, op.kind)],
            [LegacyRequest(link.clientId, link.namespace, nextKey, op.id, op.path, op.input, kind)],
            if op.kind == SubscriptionOp then [Started] else [],
            nextKey + 1)
  }

  /** The operation's signal aborts: the callback is dropped and a stop is
      posted with a fresh key, whatever the kind of operation. */
  function Abort(link: LegacyLink, listeners: Listeners, op: Operation, nextKey: nat): (r: LinkOut)
    ensures (link.namespace, op.id) !in r.listeners
    ensures forall k :: k != (link.namespace, op.id) ==>
              (k in r.listeners <==> k in listeners) && (k in listeners ==> r.listeners[k] == listeners[k])
    ensures r.notes == []
    ensures |r.posts| == 1 && r.posts[0].kind == "subscription.stop"
    ensures r.posts[0].id == op.id && r.posts[0].namespace == link.namespace && r.posts[0].idempotencyKey == nextKey
    ensures r.nextKey == nextKey + 1
  {
    LinkOut(listeners - {(link.namespace, op.id)},
            [LegacyRequest(link.clientId, link.namespace, nextKey, op.id, op.path, op.input, "subscription.stop")],
            [], nextKey + 1)
  }

  /** Unsubscribing from the observable completes it; the callback stays. */
  function Teardown(listeners: Listeners, nextKey: nat): (r: LinkOut)
    ensures r.listeners == listeners && r.posts == [] && r.notes == [Complete] && r.nextKey == nextKey
  {
    LinkOut(listeners, [], [Complete], nextKey)
  }

  /** Tearing an operation down does not drop its callback: a result that
      arrives afterwards still runs it, feeding an observer already
      completed. */
  lemma TeardownKeepsCallback(link: LegacyLink, listeners: Listeners, op: Operation, handle: nat, nextKey: nat, ev: LegacyEvent)
    requires (ev.namespace, ev.id) == (link.namespace, op.id)
    requires ev.kind != "subscription.stop"
    ensures var begun := Begin(link, listeners, op, handle, nextKey);
            var closed := Teardown(begun.listeners, begun.nextKey);
            && closed.notes == [Complete]
            && OnMessage(closed.listeners, LegacyEnvelope(None, Some(ev))).1[0] == (handle, Next(ev.output))
  {
  }

  /** The stored callback run on a value: the value, then completion unless
      the operation is a subscription. Each note is tagged with its
      operation's handle. */
  function Invoke(cb: Callback, output: Value): (r: seq<(nat, Notification)>)
    ensures |r| == (if cb.kind == SubscriptionOp then 1 else 2)
    ensures r[0] == (cb.handle, Next(output))
    ensures forall i :: 1 <= i < |r| ==> r[i] == (cb.handle, Complete)
  {
    [(cb.handle, Next(output))] + (if cb.kind != SubscriptionOp then [(cb.handle, Complete)] else [])
  }

  /** The port's message handler. A stop drops the callback unrun; a
      subscription output runs it and keeps it; every other type drops it
      and runs it. Messages that do not parse are ignored. */
  function OnMessage(listeners: Listeners, msg: LegacyMessage): (r: (Listeners, seq<(nat, Notification)>))
    ensures Parse(msg).None? ==> r == (listeners, [])
    ensures Parse(msg).Some? ==>
              var ev := Parse(msg).value;
              var k := (ev.namespace, ev.id);
              && (ev.kind == "subscription.output" ==>
                    r.0 == listeners && r.1 == (if k in listeners then Invoke(listeners[k], ev.output) else []))
              && (ev.kind != "subscription.output" ==> r.0 == listeners - {k})
              && (ev.kind == "subscription.stop" ==> r.1 == [])
              && (ev.kind != "subscription.output" && ev.kind != "subscription.stop" ==>
                    r.1 == (if k in listeners then Invoke(listeners[k], ev.output) else []))
  {
    match Parse(msg)
    case None => (listeners, [])
    case Some(ev) =>
      var k := (ev.namespace, ev.id);
      if ev.kind == "subscription.stop" then (listeners - {k}, [])
      else if ev.kind == "subscription.output" then
        (listeners, if k in listeners then Invoke(listeners[k], ev.output) else [])
      else
        (listeners - {k}, if k in listeners then Invoke(listeners[k], ev.output) else [])
  }

  /** Feeds messages in order, collecting the notes. */
  function Deliver(listeners: Listeners, msgs: seq<LegacyMessage>): (Listeners, seq<(nat, Notification)>)
    decreases |msgs|
  {
    if |msgs| == 0 then (listeners, [])
    else
      var (l1, notes) := OnMessage(listeners, msgs[0]);
      var (l2, rest) := Deliver(l1, msgs[1..]);
      (l2, notes + rest)
  }

  /** Whether every message in `msgs` is an event for `k`. */
  predicate AllFor(msgs: seq<LegacyMessage>, k: (string, int))
  {
    forall i :: 0 <= i < |msgs| ==> Parse(msgs[i]).Some? && (Parse(msgs[i]).value.namespace, Parse(msgs[i]).value.id) == k
  }

  /** With no callback under `k`, events for `k` notify nobody and leave none. */
  lemma {:induction false} UnregisteredStaysSilent(listeners: Listeners, msgs: seq<LegacyMessage>, k: (string, int))
    requires k !in listeners
    requires AllFor(msgs, k)
    ensures Deliver(listeners, msgs).1 == []
    ensures k !in Deliver(listeners, msgs).0
    decreases |msgs|
  {
    if |msgs| > 0 {
      var (l1, notes) := OnMessage(listeners, msgs[0]);
      assert AllFor(msgs[1..], k) by {
        forall i | 0 <= i < |msgs[1..]| ensures Parse(msgs[1..][i]).Some? && (Parse(msgs[1..][i]).value.namespace, Parse(msgs[1..][i]).value.id) == k {
          assert msgs[1..][i] == msgs[i + 1];
        }
      }
      UnregisteredStaysSilent(l1, msgs[1..], k);
    }
  }

  /** Without duplicate suppression, a query's or mutation's result still
      reaches its observer at most once: the first result event removes the
      callback, so later copies (or any later events for the same
      `namespace:id`) notify nobody. */
  lemma {:induction false} ResultDeliveredOnce(listeners: Listeners, msgs: seq<LegacyMessage>, k: (string, int))
    requires k in listeners && listeners[k].kind != SubscriptionOp
    requires AllFor(msgs, k)
    requires forall i :: 0 <= i < |msgs| ==> Parse(msgs[i]).value.kind != "subscription.output"
    ensures |Deliver(listeners, msgs).1| <= 2
    ensures |msgs| > 0 ==> k !in Deliver(listeners, msgs).0
  {
    if |msgs| > 0 {
      var (l1, notes) := OnMessage(listeners, msgs[0]);
      assert |notes| <= 2;
      assert k !in l1;
      assert AllFor(msgs[1..], k) by {
        forall i | 0 <= i < |msgs[1..]| ensures Parse(msgs[1..][i]).Some? && (Parse(msgs[1..][i]).value.namespace, Parse(msgs[1..][i]).value.id) == k {
          assert msgs[1..][i] == msgs[i + 1];
        }
      }
      UnregisteredStaysSilent(l1, msgs[1..], k);
    }
  }

  /** A replayed subscription output is delivered twice: nothing in the
      legacy client suppresses duplicates. */
  lemma SubscriptionReplayDeliveredTwice(listeners: Listeners, ev: LegacyEvent)
    requires ev.kind == "subscription.output" && (ev.namespace, ev.id) in listeners
    requires listeners[(ev.namespace, ev.id)].kind == SubscriptionOp
    ensures var notes := Deliver(listeners, [LegacyEnvelope(None, Some(ev)), LegacyEnvelope(None, Some(ev))]).1;
            var cb := listeners[(ev.namespace, ev.id)];
            |notes| == 2 && notes[0] == notes[1] == (cb.handle, Next(ev.output))
  {
    var msg := LegacyEnvelope(None, Some(ev));
    var msgs := [msg, msg];
    var cb := listeners[(ev.namespace, ev.id)];
    var once := OnMessage(listeners, msg);
    assert once == (listeners, Invoke(cb, ev.output));
    assert msgs[1..] == [msg];
    assert [msg][1..] == [];
    assert Deliver(listeners, []) == (listeners, []);
    assert Invoke(cb, ev.output) + [] == Invoke(cb, ev.output);
    assert Deliver(listeners, [msg]) == (listeners, Invoke(cb, ev.output));
    assert Deliver(listeners, msgs) == (listeners, Invoke(cb, ev.output) + Invoke(cb, ev.output));
  }

  /** As written, an event the handler is meant to deliver never reaches its
      callback: with a `werpc_event` field the handler throws, without one
      the message is dropped; either way the callback stays and nobody is
      notified. The intended reading runs the callback. */
  lemma AsWrittenDropsEveryEvent(listeners: Listeners, ev: LegacyEvent, gate: Option<Value>)
    requires (ev.namespace, ev.id) in listeners && ev.kind != "subscription.stop"
    ensures var msg := LegacyEnvelope(gate, Some(ev));
            && OnMessageAsWritten(listeners, msg) == (listeners, [], gate.Some?)
            && OnMessage(listeners, msg).1 == Invoke(listeners[(ev.namespace, ev.id)], ev.output)
            && OnMessage(listeners, msg).1 != []
  {
  }

  /** Feeds messages in order to the handler as written; a message whose
      handler throws does not stop the next one. */
  function DeliverAsWritten(listeners: Listeners, msgs: seq<LegacyMessage>): (Listeners, seq<(nat, Notification)>)
    decreases |msgs|
  {
    if |msgs| == 0 then (listeners, [])
    else
      var (l1, notes, _) := OnMessageAsWritten(listeners, msgs[0]);
      var (l2, rest) := DeliverAsWritten(l1, msgs[1..]);
      (l2, notes + rest)
  }

  /** As written, no sequence of messages whatever notifies any observer or
      changes the callbacks. */
  lemma {:induction false} AsWrittenDeliversNothing(listeners: Listeners, msgs: seq<LegacyMessage>)
    ensures DeliverAsWritten(listeners, msgs) == (listeners, [])
    decreases |msgs|
  {
    if |msgs| > 0 {
      var (l1, notes, _) := OnMessageAsWritten(listeners, msgs[0]);
      assert l1 == listeners && notes == [];
      AsWrittenDeliversNothing(listeners, msgs[1..]);
      assert notes + [] == [];
    }
  }

  /** The legacy client: its shared callback map and its cached namespaces. */
  datatype LegacyClient = LegacyClient(listeners: Listeners, clients: set<string>)

  /** `createClient()`: refused in a service worker. */
  function CreateClient(inServiceWorker: bool): (r: Result<LegacyClient, ClientError>)
    ensures inServiceWorker <==> r.Failure?
    ensures r.Failure? ==> r.error == InServiceWorker
    ensures r.Success? ==> r.value.listeners == map[] && r.value.clients == {}
  {
    if inServiceWorker then Failure(InServiceWorker) else Success(LegacyClient(map[], {}))
  }

  /** The proxy's `get`: a symbol throws; a namespace gets its cached link,
      built on first use without a client id. */
  function Get(c: LegacyClient, prop: PropertyKey): (r: Result<(LegacyClient, LegacyLink), ClientError>)
    ensures prop.SymbolKey? ==> r == Failure(InvalidNamespace)
    ensures prop.StringKey? ==>
              && r.Success?
              && r.value.1 == LegacyLink(None, prop.name)
              && r.value.0 == c.(clients := c.clients + {prop.name})
              && (prop.name in c.clients ==> r.value.0 == c)
  {
    match Namespace(prop)
    case Failure(e) => Failure(e)
    case Success(ns) =>
      var link := LegacyLink(None, ns);
      if ns in c.clients then Success((c, link)) else Success((c.(clients := c.clients + {ns}), link))
  }

  /** Requests from a link the legacy client builds never carry a client id,
      so the handler cannot tell its clients' events apart. */
  lemma PostsCarryNoClientId(c: LegacyClient, ns: string, op: Operation, handle: nat, nextKey: nat)
    ensures var link := Get(c, StringKey(ns)).value.1;
            && Begin(link, c.listeners, op, handle, nextKey).posts[0].clientId.None?
            && Abort(link, c.listeners, op, nextKey).posts[0].clientId.None?
  {
  }
}

=== FILE: operations.dfy ===
/** The tRPC side of a link: the operation a call site hands to a link, and
    the calls a link makes on the operation's observer. */
module Operations {
  import opened Bridge

  datatype OpKind = QueryOp | MutationOp | SubscriptionOp

  /** `op`: its request id (unique per client and namespace while open), the
      procedure path, the input, and the kind of call. */
  datatype Operation = Operation(id: int, path: string, input: Value, kind: OpKind)

  /** `observer.next({ result: { type: "started" } })`,
      `observer.next({ result: { data } })`, `observer.complete()`. */
  datatype Notification = Started | Next(data: Value) | Complete
}

=== FILE: ports.dfy ===
/** The handler's port registry and its broadcast scoping rule.

    A port is known by a handle and by the id of the tab its sender lives in,
    if any. The registry is an insertion-ordered set of ports: werpc-named
    ports join it when they connect and leave it when they disconnect, and the
    context's own outgoing port (absent in a service worker) is in it from the
    start, with no tab. */
module Ports {
  import opened Wrappers
  import opened Seqs
  import opened Bridge

  /** The context's own outgoing port, which has no sender, or a runtime
      port that connected, known by a handle and its sender's tab, if any. */
  datatype Port = Local | Remote(handle: nat, tab: Option<int>)

  /** `!portTabId`: no sender tab, or tab id 0, which JavaScript also treats
      as false. */
  predicate Untargeted(p: Port)
  {
    p.Local? || p.tab.None? || p.tab.value == 0
  }

  /** Whether a broadcast aimed at `target` is posted to `p`. */
  predicate Receives(p: Port, target: Option<int>)
  {
    target.None? || Untargeted(p) || p.tab == target
  }

  /** The registry when the handler starts. */
  function Initial(inServiceWorker: bool): (r: seq<Port>)
    ensures Local in r <==> !inServiceWorker
    ensures |r| <= 1
  {
    if inServiceWorker then [] else [Local]
  }

  /** A runtime port connects: it joins the registry only if it carries the
      werpc channel name. */
  function Connect(ports: seq<Port>, handle: nat, tab: Option<int>, portName: string, channel: string): (r: seq<Port>)
    ensures portName != channel ==> r == ports
    ensures portName == channel ==> forall q :: q in r <==> q in ports || q == Remote(handle, tab)
    ensures NoDup(ports) ==> NoDup(r)
  {
    if portName != channel then ports else Insert(ports, Remote(handle, tab))
  }

  /** A runtime port disconnects and leaves the registry; the local port is
      never one of them. */
  function Disconnect(ports: seq<Port>, handle: nat, tab: Option<int>): (r: seq<Port>)
    ensures forall q :: q in r <==> q in ports && q != Remote(handle, tab)
    ensures Local in ports ==> Local in r
    ensures NoDup(ports) ==> NoDup(r)
  {
    Remove(ports, Remote(handle, tab))
  }

  /** The ports a broadcast aimed at `target` is posted to, in registry order. */
  function Recipients(ports: seq<Port>, target: Option<int>): (r: seq<Port>)
    ensures forall p :: p in r <==> p in ports && Receives(p, target)
    ensures target.None? ==> r == ports
    ensures NoDup(ports) ==> NoDup(r)
    ensures |r| <= |ports|
  {
    if |ports| == 0 then []
    else
      var rest := Recipients(ports[1..], target);
      if Receives(ports[0], target) then
        var r := [ports[0]] + rest;
        assert NoDup(ports) ==> NoDup(r) by {
          if NoDup(ports) {
            assert forall k :: 0 <= k < |ports[1..]| ==> ports[1..][k] != ports[0];
            assert ports[0] !in rest;
            assert forall j :: 0 < j < |r| ==> r[j] == rest[j - 1] && r[j] in rest;
          }
        }
        r
      else rest
  }

  /** One `postMessage` of a message to a port. */
  datatype Send = Send(port: Port, msg: Message)

  /** One message posted to each port of `to`, in order. */
  function Batch(to: seq<Port>, m: Message): (r: seq<Send>)
    ensures |r| == |to|
    ensures forall i :: 0 <= i < |to| ==> r[i] == Send(to[i], m)
    ensures forall s :: s in r <==> s.msg == m && s.port in to
  {
    var r := seq(|to|, i requires 0 <= i < |to| => Send(to[i], m));
    assert forall s :: s in r <==> s.msg == m && s.port in to by {
      forall s: Send | s.msg == m && s.port in to
        ensures s in r
      {
        var i :| 0 <= i < |to| && to[i] == s.port;
        assert r[i] == s;
      }
    }
    r
  }

  /** `broadcast` of each message in turn: every message is posted to each of
      its recipients before the next message goes out. */
  function FanOut(ports: seq<Port>, target: Option<int>, msgs: seq<Message>): (r: seq<Send>)
    ensures forall s :: s in r <==> s.msg in msgs && s.port in ports && Receives(s.port, target)
    ensures |r| == |msgs| * |Recipients(ports, target)|
  {
    if |msgs| == 0 then []
    else
      var first := Batch(Recipients(ports, target), msgs[0]);
      var rest := FanOut(ports, target, msgs[1..]);
      MulStep(|msgs|, |Recipients(ports, target)|);
      HeadOrTail(msgs);
      first + rest
  }

  lemma MulStep(a: nat, b: nat)
    requires a > 0
    ensures a * b == b + (a - 1) * b
  {
  }

  /** An element of a non-empty sequence is its head or lies in its tail. */
  lemma HeadOrTail<T>(s: seq<T>)
    requires |s| > 0
    ensures forall x :: x in s <==> x == s[0] || x in s[1..]
  {
    assert s == [s[0]] + s[1..];
  }

  /** The messages posted to `p`, in the order they were posted. */
  function MessagesTo(sends: seq<Send>, p: Port): seq<Message>
  {
    if |sends| == 0 then []
    else (if sends[0].port == p then [sends[0].msg] else []) + MessagesTo(sends[1..], p)
  }

  lemma {:induction false} MessagesToConcat(a: seq<Send>, b: seq<Send>, p: Port)
    ensures MessagesTo(a + b, p) == MessagesTo(a, p) + MessagesTo(b, p)
    decreases |a|
  {
    if |a| == 0 {
      assert a + b == b;
    } else {
      assert (a + b)[0] == a[0] && (a + b)[1..] == a[1..] + b;
      MessagesToConcat(a[1..], b, p);
    }
  }

  /** One message posted to each of duplicate-free `to` reaches `p` once if
      `p` is among them, and not at all otherwise. */
  lemma {:induction false} BatchReachesEachOnce(to: seq<Port>, m: Message, p: Port)
    requires NoDup(to)
    ensures MessagesTo(Batch(to, m), p) == if p in to then [m] else []
    decreases |to|
  {
    if |to| > 0 {
      var b := Batch(to, m);
      assert b[0] == Send(to[0], m);
      assert b[1..] == Batch(to[1..], m);
      assert NoDup(to[1..]) by {
        forall a, c | 0 <= a < c < |to[1..]| ensures to[1..][a] != to[1..][c] {
          assert to[1..][a] == to[a + 1] && to[1..][c] == to[c + 1];
        }
      }
      BatchReachesEachOnce(to[1..], m, p);
      assert to[0] !in to[1..] by {
        forall k | 0 <= k < |to[1..]| ensures to[1..][k] != to[0] { assert to[1..][k] == to[k + 1]; }
      }
      assert p in to <==> p == to[0] || p in to[1..];
    }
  }

  /** Over a duplicate-free registry, every recipient of a broadcast gets each
      message exactly once and in the order given, and every other port gets
      none: the order of a subscription's events survives the fan-out. */
  lemma {:induction false} FanOutPreservesOrder(ports: seq<Port>, target: Option<int>, msgs: seq<Message>, p: Port)
    requires NoDup(ports)
    ensures MessagesTo(FanOut(ports, target, msgs), p) == if p in ports && Receives(p, target) then msgs else []
    decreases |msgs|
  {
    if |msgs| > 0 {
      var to := Recipients(ports, target);
      var first := Batch(to, msgs[0]);
      assert FanOut(ports, target, msgs) == first + FanOut(ports, target, msgs[1..]);
      MessagesToConcat(first, FanOut(ports, target, msgs[1..]), p);
      BatchReachesEachOnce(to, msgs[0], p);
      FanOutPreservesOrder(ports, target, msgs[1..], p);
      assert [msgs[0]] + msgs[1..] == msgs;
    }
  }

  /** An untargeted port receives every broadcast, and an unscoped broadcast
      reaches every port. */
  lemma UntargetedAlwaysReceives(ports: seq<Port>, p: Port, target: Option<int>)
    requires p in ports
    requires Untargeted(p) || target.None?
    ensures p in Recipients(ports, target)
  {
  }
}

=== FILE: seqs.dfy ===
/** Sequences used as insertion-ordered, duplicate-free sets (the model of a
    JavaScript `Set`, whose iteration order is insertion order). */
module Seqs {

  /** No element occurs twice. */
  predicate NoDup<T(==)>(s: seq<T>)
  {
    forall i, j :: 0 <= i < j < |s| ==> s[i] != s[j]
  }

  /** `set.add(x)`: appends `x` unless it is already present, in which case
      its position is kept. */
  function Insert<T(==,!new)>(s: seq<T>, x: T): (r: seq<T>)
    ensures x in r
    ensures forall y :: y in r <==> y in s || y == x
    ensures x in s ==> r == s
    ensures x !in s ==> r == s + [x]
    ensures NoDup(s) ==> NoDup(r)
  {
    if x in s then s else s + [x]
  }

  /** `set.delete(x)`: drops `x`, keeping the order of everything else. */
  function Remove<T(==,!new)>(s: seq<T>, x: T): (r: seq<T>)
    ensures forall y :: y in r <==> y in s && y != x
    ensures x !in s ==> r == s
    ensures NoDup(s) ==> NoDup(r)
    ensures |r| <= |s|
  {
    if |s| == 0 then []
    else if s[0] == x then Remove(s[1..], x)
    else
      var rest := Remove(s[1..], x);
      var r := [s[0]] + rest;
      assert NoDup(s) ==> NoDup(r) by {
        if NoDup(s) {
          assert forall k :: 0 <= k < |s[1..]| ==> s[1..][k] != s[0];
          assert s[0] !in rest;
          assert forall j :: 0 < j < |r| ==> r[j] == rest[j - 1] && r[j] in rest;
        }
      }
      r
  }

  /** Removing an element that occurs only at `i` closes the gap: everything
      before it and everything after it keep their order. */
  lemma {:induction false} RemoveOnlyOccurrence<T(!new)>(s: seq<T>, x: T, i: nat)
    requires i < |s| && s[i] == x && x !in s[..i] && x !in s[i + 1..]
    ensures Remove(s, x) == s[..i] + s[i + 1..]
    decreases |s|
  {
    var t := s[1..];
    if i == 0 {
      assert t == s[i + 1..];
      assert s[..0] + t == t;
    } else {
      assert s[0] == s[..i][0];
      assert t[..i - 1] == s[1..i];
      assert t[i..] == s[i + 1..];
      var pre, mid := s[..i], t[..i - 1];
      assert x !in mid by {
        forall k | 0 <= k < |mid| ensures mid[k] != x {
          assert mid[k] == pre[k + 1];
        }
      }
      RemoveOnlyOccurrence(t, x, i - 1);
      assert s[..i] == [s[0]] + t[..i - 1];
    }
  }

  /** In a duplicate-free sequence, removing the element at `i` closes the
      gap: everything before it and everything after it keep their order. */
  lemma RemoveKeepsOrder<T(!new)>(s: seq<T>, x: T, i: nat)
    requires NoDup(s) && i < |s| && s[i] == x
    ensures Remove(s, x) == s[..i] + s[i + 1..]
  {
    var pre, post := s[..i], s[i + 1..];
    assert x !in pre by {
      forall k | 0 <= k < |pre| ensures pre[k] != x { assert pre[k] == s[k]; }
    }
    assert x !in post by {
      forall k | 0 <= k < |post| ensures post[k] != x { assert post[k] == s[i + 1 + k]; }
    }
    RemoveOnlyOccurrence(s, x, i);
  }
}

=== FILE: sum.dfy ===
/** The package's placeholder export `sum(...values)`: the values added
    left to right, starting from 0. JavaScript numbers are modelled as
    integers. */
module Sum {
  /** The sum of `values`, folding from the left as the loop does. */
  function Sum(values: seq<int>): int
  {
    if |values| == 0 then 0 else Sum(values[..|values| - 1]) + values[|values| - 1]
  }

  /** The loop of `sum`: a running result, one value added per step. */
  method SumLoop(values: seq<int>) returns (result: int)
    ensures result == Sum(values)
  {
    result := 0;
    var i := 0;
    while i < |values|
      invariant 0 <= i <= |values|
      invariant result == Sum(values[..i])
    {
      assert values[..i + 1][..i] == values[..i];
      result := result + values[i];
      i := i + 1;
    }
    assert values[..|values|] == values;
  }

  /** Summing a concatenation adds the sums of its parts. */
  lemma {:induction false} SumConcat(a: seq<int>, b: seq<int>)
    ensures Sum(a + b) == Sum(a) + Sum(b)
    decreases |b|
  {
    if |b| == 0 {
      assert a + b == a;
    } else {
      var b' := b[..|b| - 1];
      assert (a + b)[..|a + b| - 1] == a + b';
      SumConcat(a, b');
    }
  }

  /** With no values the sum is 0. */
  lemma SumOfNothing()
    ensures Sum([]) == 0
  {
  }

  /** `sum(1, 5, 10, 20)` is 36. */
  lemma SumOfFour()
    ensures Sum([1, 5, 10, 20]) == 36
  {
    assert [1, 5, 10, 20][..3] == [1, 5, 10];
    assert [1, 5, 10][..2] == [1, 5];
    assert [1, 5][..1] == [1];
    assert [1][..0] == [];
  }
}

=== FILE: wrappers.dfy ===
/** Optional values and results, standing in for TypeScript's `T | undefined`
    and for operations that either return a value or throw. */
module Wrappers {

  /** `Some(v)` for a defined value, `None` for `undefined`. */
  datatype Option<+T> = None | Some(value: T) {

    /** The nullish-coalescing operator: `this ?? fallback`. */
    function OrElse(fallback: Option<T>): Option<T>
    {
      if Some? then this else fallback
    }
  }

  /** The outcome of an operation that may throw: its value or the error it throws. */
  datatype Result<+R, +E> = Success(value: R) | Failure(error: E)
}
